=== FILE: README.md ===
# Rule-driven record transformation, modelled in Dafny

The transformation package applies a user's rule file to a sequence of
records (maps from column name to cell). It filters records with numeric
conditions (`>18`, `<5`, `=3`), optionally lower-cases every column name,
and runs `sum`/`count` aggregations whose single result is broadcast into
every record under a derived column name such as `total_<column>`.

The Go source holds three hand-copied versions of this engine:

- `csv.go` works on `map[string]string` records. A cell is numeric when
  `ParseFloat` accepts it.
- `csv_to_json.go` works on `map[string]interface{}` records read from CSV.
  Every string cell counts as numeric, and an unparseable one reads as 0.
- `trans_json.go` works on decoded JSON. Only `float64` cells are numeric,
  and the output pattern substitutes `<key>` instead of `<column>`.

This model writes the engine once (`Transform`) and parameterises it by an
`Engine` record. The record fixes five things: the numeric view of a cell, the
value read for a missing key, the condition evaluator, the placeholder, and
how sums and counts are stored. `Variants` builds the three instances and
proves where they agree and where they diverge.

Two further operations are modelled:

- `Firebase` is the rename-and-add-fields rewrite of the Firebase pipeline.
  Its output goes to the document store, or to JSON or CSV.
- `Bridge` is `ConvertMapToStringMap`, which renders typed cells as strings:
  decoded JSON before the string engine runs, and the Firebase pipeline's
  records before JSON or CSV output. Any cell whose Go type is not a string,
  `float64`, `int`, `int64`, `bool` or `nil` fails the whole conversion.
  The Go loop returns at the first failing record. The model converts every
  record and then keeps the first failure (`Wrappers.Collect`); records are
  independent, so both give the same result.

Modules:

- `Wrappers`: `Option` and `Result`.
- `Text`:
  - Go's `strings.TrimSpace`, with the full `unicode.IsSpace` set;
  - `strings.ToLower`, ASCII only;
  - `strings.Replace(s, pat, rep, 1)`;
  - `strconv.Itoa`, with a parse-back round trip.
- `KeyOrder`: a fixed ascending enumeration of a record's keys. It stands in
  for Go's unspecified map iteration order.
- `Values`: the dynamically typed cell.
- `Conditions`: `checkCondition` and its two copies.
- `Transform`: filter, dynamic mapping, aggregation and the pipeline, generic
  in the cell type.
- `Variants`, `Firebase`, `Bridge`: as described above.

Parsing and float formatting are parameters:

- `ParseFloat` is a caller-supplied `string -> Option<real>`.
- `FormatFloat(x, 'f', 2, 64)` and `FormatFloat(x, 'f', -1, 64)` are
  caller-supplied `real -> string`.

The proofs therefore hold for any parser and formatter. Worked examples state
the few parser answers they rely on as preconditions, for instance
`parse("19") == Some(19.0)`.

A filter rule on column `*` does not range over the fields. The code looks up
the literal key `*`; when no record has a `*` key, it reads the zero value. `""` does not parse and `nil` is not numeric,
so such a rule never removes a record. `Transform.StarRuleNeverConstrains` and
`Variants.StarFilterInert` state that behaviour.

## Model

| member | source | states |
|---|---|---|
| Conditions.CheckConditionRendered | pkg/transform/csv.go:147-160 | A condition written as blanks, `>`/`<`/`=`, blanks, a literal and blanks holds exactly when the value is greater than, less than or equal to what ParseFloat reads from the literal; a literal that does not parse compares as 0 |
| Conditions.BlankConditionHolds | pkg/transform/csv.go:147-160 | An empty or all-blank condition accepts every value |
| Conditions.UnknownConditionHolds | pkg/transform/csv.go:159 | A condition that, once trimmed, starts with no comparison operator accepts every value |
| Text.TrimSpacePadded | pkg/transform/csv.go:148 | Trimming removes exactly the surrounding blanks, whatever Unicode white space they are |
| Text.TrimSpaceIdempotent | pkg/transform/csv.go:148-150 | Trimming an already trimmed condition changes nothing |
| Text.ReplaceFirstAt | pkg/transform/csv.go:137 | Only the first placeholder occurrence is substituted; the text before and after it is kept |
| Text.ReplaceFirstAbsent | pkg/transform/trans_json.go:139 | A pattern with no placeholder is used verbatim as the output name |
| Text.IntDecimalRoundTrip | pkg/transform/csv.go:139 | The decimal text written for a count reads back as the same integer |
| Text.LowerIdempotent | pkg/transform/csv.go:82 | Lower-casing a lower-cased name changes nothing |
| KeyOrder.SortedKeys | pkg/transform/csv.go:103 | The enumeration used for Go's map iteration lists every key of the record exactly once and nothing else |
| KeyOrder.SortedKeysAscending | pkg/transform/csv.go:103 | That enumeration is in ascending lexicographic order, so the model is deterministic |
| Transform.KeepRowIsConjunction | pkg/transform/csv.go:53-67 | A record is kept exactly when every rule lets it through (AND over the rules, in either order of reasoning) |
| Transform.ApplyFilters | pkg/transform/csv.go:49-73 | The filter never grows the data, every kept record passes all rules, and every output record comes from the input |
| Transform.FilterIsSubsequence | pkg/transform/csv.go:52-70 | The filter output is an order-preserving subsequence of the input |
| Transform.FilterMembership | pkg/transform/csv.go:52-70 | A record is in the output if and only if it is in the input and passes every rule |
| Transform.FilterIdempotent | pkg/transform/csv.go:49-73 | Filtering twice with the same rules equals filtering once |
| Transform.FilterWithoutRules | pkg/transform/csv.go:53-69 | With no rules every record is kept, in order |
| Transform.FilterIgnoresVacuousRule | pkg/transform/csv.go:54-66 | Appending a rule that every record passes does not change the result |
| Transform.AbsentOrNonNumericPasses | pkg/transform/csv.go:59-64 | A rule on a missing column other than `*`, or on a cell that is not numeric, never drops a record |
| Transform.StarRuleNeverConstrains | pkg/transform/csv.go:59-64 | When the missing-key value is not numeric and no record has a `*` key, a `*` rule never changes the filter result |
| Transform.LowerRow | pkg/transform/csv.go:79-85 | The keys of a mapped record are exactly the lower-cased input keys, and every value comes from an input key that lower-cases to it |
| Transform.ApplyDynamicMapping | pkg/transform/csv.go:76-88 | Mapping keeps the record count; each record's keys are the lower-cased input keys, all of them lower case, and each value is copied from an input key that lower-cases to it |
| Transform.LowerRowKeepsValues | pkg/transform/csv.go:81-83 | Without case collisions every value survives under the lower-cased form of its key |
| Transform.LowerRowIdempotent | pkg/transform/csv.go:79-85 | Lower-casing the keys of a record twice equals doing it once |
| Transform.DynamicMappingIdempotent | pkg/transform/csv.go:76-88 | Applying dynamic mapping twice equals applying it once |
| Transform.CountIsNumericRows | pkg/transform/csv.go:122-132 | The count is the number of records whose column exists and is numeric, not the number of records |
| Transform.TallyAppend | pkg/transform/csv.go:122-132 | Sum and count split over a concatenation of record sequences: each record contributes on its own |
| Transform.ApplySingleAggregation | pkg/transform/csv.go:117-144 | Record count is kept. Only the derived key is added or overwritten, in every record, holding the sum or the count. Any other operation changes nothing |
| Transform.BroadcastIsUniform | pkg/transform/csv.go:135-141 | After `sum` or `count` every record holds the identical value under the derived key |
| Transform.AggregateEachCovers | pkg/transform/csv.go:102-107 | When no derived name is one of the visited columns, the wildcard loop gives every visited column that is numeric in record 0 its derived key in every record |
| Transform.AggregateEachOnlyDerived | pkg/transform/csv.go:102-107 | When no derived name is one of the visited columns, the wildcard loop adds or changes nothing but derived keys of visited columns that are numeric in record 0 |
| Transform.WildcardAggregation | pkg/transform/csv.go:102-141 | A `*` rule aggregates exactly the numeric columns of record 0 (when no derived name is already a column there); columns seen only in later records are ignored; when distinct columns get distinct derived names, each derived field holds the sum or count of its own column in every record |
| Transform.TallySameColumn | pkg/transform/csv.go:122-132 | Sum and count read only the aggregated column: inputs that agree on it give the same totals |
| Transform.AggregateEachValues | pkg/transform/csv.go:102-141 | In the wildcard loop, when no derived name is one of the visited columns and distinct columns get distinct derived names, each visited column numeric in record 0 ends up with its own sum or count, computed as over the input records |
| Transform.AggregateRowZeroValues | pkg/transform/csv.go:102-141 | Over record 0's columns, when no derived name is already a key of record 0 and distinct columns get distinct derived names, each numeric column's derived field holds that column's sum or count in every record |
| Transform.ApplyAggregations | pkg/transform/csv.go:91-114 | Aggregation keeps the record count, never removes a key, and returns empty input unchanged |
| Transform.AggregationRulesCompose | pkg/transform/csv.go:97-111 | On non-empty input, running two rule lists one after the other is running their concatenation |
| Transform.AggregationsCompose | pkg/transform/csv.go:97-111 | The rules run left to right: aggregating with `r1 + r2` is aggregating with `r1`, then with `r2` on the result |
| Transform.TwoRules | pkg/transform/csv.go:97-111 | With two rules, the second runs on the records the first produced |
| Transform.SecondRuleSeesFirst | pkg/transform/csv.go:97-111 | A `*` rule after a named rule works on the updated record 0: when no derived name is already a key there, for `sum` or `count` it gives every column numeric in the updated record 0 its derived field in every record, and adds or changes nothing else |
| Transform.ApplyTransformations | pkg/transform/csv.go:33-46 | The pipeline returns as many records as the filter keeps |
| Transform.IdentityLaw | pkg/transform/csv.go:33-46 | No filters, mapping off and no aggregations return the records unchanged |
| Transform.CountRuleBroadcasts | pkg/transform/csv.go:108-110 | A lone `count` rule on a named column writes the number of numeric cells into every record |
| Transform.CountSeesFilteredRows | pkg/transform/csv.go:33-46 | Stages run filter, then mapping, then aggregation: a count counts the records the filter kept, after lower-casing when mapping is on |
| Transform.PipelineWithoutAggregationFilters | pkg/transform/csv.go:33-46 | With mapping off and no aggregations the pipeline is exactly the filter |
| Variants.StringFilterKeepsNonNumeric | pkg/transform/csv.go:59-64 | With `>18` over 17, 19 and "abc", csv.go keeps 19 and "abc" and drops 17 |
| Variants.CsvFilterDropsUnparseable | pkg/transform/csv_to_json.go:99-104 | With the same rule and cells, csv_to_json.go keeps only 19, because "abc" is a string, reads as 0 and fails `>18` |
| Variants.JsonStringCellsNeverConstrain | pkg/transform/trans_json.go:61-66 | In trans_json.go a filter never removes a record whose filtered cells are not floats, such as the string "25" |
| Variants.StarFilterInert | pkg/transform/csv_to_json.go:99-104 | In all three variants a `*` filter rule leaves the result unchanged when no record has a `*` key |
| Variants.StringCountSkipsNonNumeric | pkg/transform/csv.go:123-139 | Counting `amount` over 10, "x", 5 writes "2" under `n_amount` into all three records |
| Variants.StringSumSkipsNonNumeric | pkg/transform/csv.go:123-137 | Summing `amount` over 10, "x", 5 writes the formatted 15 into all three records |
| Variants.CsvCountCountsStrings | pkg/transform/csv_to_json.go:162-171 | The csv_to_json.go count is the number of records whose column holds any string |
| Variants.JsonCountCountsFloats | pkg/transform/trans_json.go:124-134 | The trans_json.go count is the number of records whose key holds a float |
| Variants.CsvResultsNotReaggregated | pkg/transform/csv_to_json.go:175-181 | The float or int csv_to_json.go writes is not numeric for that variant |
| Variants.CsvWildcardSkipsEarlierResult | pkg/transform/csv_to_json.go:136-148 | In csv_to_json.go, a `*` rule after a named `sum` or `count` never aggregates the field that rule wrote, when no derived name is already a key of record 0 |
| Variants.JsonKeyPlaceholder | pkg/transform/trans_json.go:139 | trans_json.go turns `total_<key>` into `total_amount` |
| Variants.JsonIgnoresColumnPlaceholder | pkg/transform/trans_json.go:139-141 | trans_json.go leaves `total_<column>` as it is, so every key would share one output name |
| Variants.CsvColumnPlaceholder | pkg/transform/csv_to_json.go:177-179 | Both CSV variants turn `total_<column>` into `total_amount` |
| Variants.JsonWildcardAggregatesFloatKeys | pkg/transform/trans_json.go:104-142 | When no derived name is already a key of record 0, a `*` rule in trans_json.go aggregates exactly the keys whose value in record 0 is a float; with distinct derived names as well, each holds the sum or count of its own key |
| Firebase.RewriteRow | pkg/transform/firebase.go:5-12 | The keys are the original ones plus the extra fields. Extra fields win. An existing `name` gets the new name. Every other value is unchanged |
| Firebase.ApplyFirebaseTransformations | pkg/transform/firebase.go:3-15 | The record count is kept and each record is rewritten on its own |
| Firebase.NameNotInvented | pkg/transform/firebase.go:6-8 | A record has `name` afterwards exactly when it had one or an extra field supplies it |
| Firebase.FirebaseIdempotent | pkg/transform/firebase.go:3-15 | Rewriting twice equals rewriting once |
| Firebase.FirebaseDistributes | pkg/transform/firebase.go:4-13 | The rewrite distributes over concatenation of record sequences |
| Firebase.FirebaseWithoutFields | pkg/transform/firebase.go:4-13 | Without extra fields, records lacking `name` pass through unchanged |
| Wrappers.CollectSucceedsIff | pkg/input/json.go:41-67 | Stopping at the first error succeeds exactly when every step succeeds |
| Wrappers.CollectAt | pkg/input/json.go:41-67 | On success, the `i`-th collected value is the value of step `i` |
| Wrappers.CollectFirstFailure | pkg/input/json.go:60-62 | On failure the reported error is the one of the first failing step, and every earlier step succeeded |
| Wrappers.CollectConcat | pkg/input/json.go:41-67 | After steps that all succeed, collecting a concatenation succeeds exactly when the rest does, and returns the two parts' values joined |
| Bridge.Stringify | pkg/input/json.go:45-63 | Exactly the values of some other Go type (nested map or slice, `time.Time`, `[]byte`, ...) have no rendering. A string renders as itself, nil as "", a float through `FormatFloat(v, 'f', -1, 64)`, a bool as "true" or "false", and an integer as decimal text that reads back as it |
| Bridge.ConvertRow | pkg/input/json.go:42-64 | A record converts exactly when all its cells have a supported Go type; the keys are kept and each cell holds its rendering; on failure the reported key holds a value of an unsupported Go type, and the error names that type |
| Bridge.ConvertMapToStringMap | pkg/input/json.go:38-68 | On success there is one output record per input record; empty input gives empty output |
| Bridge.ConvertSucceedsIffScalar | pkg/input/json.go:41-67 | Conversion succeeds exactly when no record holds a value of an unsupported Go type (both directions) |
| Bridge.ConvertRowsAgree | pkg/input/json.go:41-66 | On success output record `i` is the conversion of input record `i` |
| Bridge.ConvertReportsFirstFailure | pkg/input/json.go:60-62 | On failure the error is the one reported by the first record that cannot be converted, and nothing else is returned |
| Bridge.ConvertCellRendered | pkg/input/json.go:44-63 | On success every record keeps its key set and each cell holds its rendering |
| Bridge.ConvertStringsRoundTrip | pkg/input/json.go:46-47 | Converting records whose cells are all strings returns exactly those string records |
| Bridge.ConvertDistributes | pkg/input/json.go:41-66 | Conversion works record by record: after scalar records, the result on a concatenation is the concatenation of the results |
| Bridge.ConvertIntReadsBack | pkg/input/json.go:51-53 | An integer cell converts to decimal text that parses back to the same integer |
| Bridge.ConvertFloatRendered | pkg/input/json.go:48-50 | A float cell converts to its `FormatFloat(v, 'f', -1, 64)` text |
| Bridge.ConvertBoolDistinguishes | pkg/input/json.go:54-56 | A bool cell converts to "true" when true and "false" when false |

## Left out

- File and network I/O are not modelled: `readCSV`, `CSVToJSON`, the JSON and CSV readers and writers, and the Firestore input and output.
- The command-line dispatch in `main.go`, the YAML loader and the HTTP routes are not part of this model.
- Floating point is replaced by `real`. `ParseFloat` and `FormatFloat` are parameters, so IEEE rounding, NaN and infinities are not modelled. A `ParseFloat` range error, which still yields ±Inf, is folded into "does not parse".
- `%d` and `strconv.Itoa` are modelled on unbounded integers. Go's `int` is 64 bits, but a count is at most the number of records.
- Map iteration order is replaced by ascending key order (`KeyOrder.SortedKeys`). Go leaves it unspecified. The order decides which key `ConvertMapToStringMap` reports, which value wins when two keys lower-case alike, and which column's sum or count survives when a `*` rule gives two columns the same derived name (a pattern without the placeholder, such as `total_<column>` in trans_json.go).
- Transform.WildcardAggregation: the wildcard loop visits a snapshot of record 0's keys. The properties are stated only when no derived name is already a key of record 0. Go ranges over record 0 while inserting derived keys into it, and may or may not visit them. The values are stated only when distinct columns get distinct derived names; otherwise the column visited last wins, which depends on the iteration order.
- Transform.AggregateEachCovers: stated only when no derived name is already a visited column of record 0, because with such a clash Go's `*` loop overwrites a column it may still visit and the outcome depends on iteration order.
- Transform.AggregateEachOnlyDerived: stated only when no derived name is already a visited column of record 0, because with such a clash Go's `*` loop overwrites a column it may still visit and the outcome depends on iteration order.
- Transform.AggregateEachValues: stated only when no derived name is already a visited column of record 0, because with such a clash Go's `*` loop overwrites a column it may still visit and the outcome depends on iteration order.
- Transform.AggregateRowZeroValues: stated only when no derived name is already a visited column of record 0, because with such a clash Go's `*` loop overwrites a column it may still visit and the outcome depends on iteration order.
- Transform.SecondRuleSeesFirst: stated only when no derived name is already a visited column of record 0, because with such a clash Go's `*` loop overwrites a column it may still visit and the outcome depends on iteration order.
- Variants.JsonWildcardAggregatesFloatKeys: stated only when no derived name is already a visited column of record 0, because with such a clash Go's `*` loop overwrites a column it may still visit and the outcome depends on iteration order.
- Variants.CsvWildcardSkipsEarlierResult: stated only when no derived name is already a visited column of record 0, because with such a clash Go's `*` loop overwrites a column it may still visit and the outcome depends on iteration order.
- Transform.LowerRowKeepsValues: requires that no two keys of the record lower-case to the same name. With a collision, Go keeps one of the values, depending on iteration order.
- Text.Lower: models ASCII `A`-`Z` only. Go's `strings.ToLower` also maps other Unicode upper-case letters.
- In-place mutation is not modelled. The Go aggregation and the Firebase rewrite write into the record maps they were given, so callers holding the input see the change. The model returns new sequences.
- `CustomMapping` in the CSV and JSON mapping rule types is not modelled, because no code reads it.
- The typed JSON and CSV rule structures are not modelled separately. They differ only in field names, and `Transform` uses one `FilterRule` and one `AggregationRule`.

=== FILE: bridge.dfy ===
/**
 * `ConvertMapToStringMap`: decoded JSON records, whose cells are typed, are
 * rendered as all-string records so the string engine can run on them. A
 * cell of an unsupported Go type aborts the whole conversion.
 *
 * Go visits a record's keys in an unspecified order and reports the first
 * unsupported key it meets; the model visits them in ascending order.
 */
module Bridge {
  import opened Wrappers
  import opened Text
  import opened KeyOrder
  import opened Values
  import opened Transform

  /** The error the conversion reports: the offending key and its Go type. */
  datatype ConvertError = UnsupportedType(key: string, kind: string)

  /**
   * One cell as a string, or None for a value of an unsupported Go type.
   * `formatFloat` stands for `FormatFloat(v, 'f', -1, 64)`.
   */
  function Stringify(v: Value, formatFloat: real -> string): (r: Option<string>)
    ensures r.None? <==> v.Composite?
    ensures v.Str? ==> r == Some(v.s)
    ensures v.Null? ==> r == Some("")
    ensures v.Float? ==> r == Some(formatFloat(v.f))
    ensures v.Bool? ==> r == Some(if v.b then "true" else "false")
    ensures v.Int? ==> |r.value| > 0 && (AllDigits(r.value) || (r.value[0] == '-' && AllDigits(r.value[1..])))
                       && DecimalToInt(r.value) == v.i
  {
    match v
    case Str(s) => Some(s)
    case Float(f) => Some(formatFloat(f))
    case Int(i) => IntDecimalRoundTrip(i); Some(IntToDecimal(i))
    case Bool(b) => Some(if b then "true" else "false")
    case Null => Some("")
    case Composite(_) => None
  }

  /** Every cell of `row` has a supported Go type, so it has a string rendering. */
  predicate Scalar(row: Row<Value>) {
    forall k | k in row :: !row[k].Composite?
  }

  /** The cells `keys` of one record, converted in order; the first unsupported key aborts. */
  function ConvertCells(row: Row<Value>, keys: seq<string>, formatFloat: real -> string): (r: Result<map<string, string>, ConvertError>)
    requires forall k | k in keys :: k in row
    ensures r.Success? <==> forall k | k in keys :: !row[k].Composite?
    ensures r.Success? ==> r.value.Keys == set k | k in keys
    ensures r.Success? ==> forall k | k in keys :: r.value[k] == Stringify(row[k], formatFloat).value
    ensures r.Failure? ==> r.error.key in keys && row[r.error.key].Composite?
                           && r.error.kind == row[r.error.key].kind
    decreases |keys|
  {
    if |keys| == 0 then Success(map[])
    else
      var k := keys[0];
      match Stringify(row[k], formatFloat)
      case None => Failure(UnsupportedType(k, row[k].kind))
      case Some(s) =>
        match ConvertCells(row, keys[1..], formatFloat)
        case Failure(e) => Failure(e)
        case Success(m) => Success(m[k := s])
  }

  /** One record. */
  function ConvertRow(row: Row<Value>, formatFloat: real -> string): (r: Result<map<string, string>, ConvertError>)
    ensures r.Success? <==> Scalar(row)
    ensures r.Success? ==> r.value.Keys == row.Keys
    ensures r.Success? ==> forall k | k in row :: r.value[k] == Stringify(row[k], formatFloat).value
    ensures r.Failure? ==> r.error.key in row && row[r.error.key].Composite?
                           && r.error.kind == row[r.error.key].kind
  {
    ConvertCells(row, SortedKeys(row.Keys), formatFloat)
  }

  /** `g` applied to every element, in order. */
  function MapEach<A, B>(g: A -> B, xs: seq<A>): (r: seq<B>)
    ensures |r| == |xs|
    ensures forall i | 0 <= i < |xs| :: r[i] == g(xs[i])
  {
    seq(|xs|, i requires 0 <= i < |xs| => g(xs[i]))
  }

  /** Mapping works element by element, so it distributes over concatenation. */
  lemma MapEachConcat<A, B>(g: A -> B, xs: seq<A>, ys: seq<A>)
    ensures MapEach(g, xs + ys) == MapEach(g, xs) + MapEach(g, ys)
  {
    var whole := MapEach(g, xs + ys);
    var parts := MapEach(g, xs) + MapEach(g, ys);
    forall i | 0 <= i < |whole| ensures whole[i] == parts[i] {
      if i < |xs| { assert (xs + ys)[i] == xs[i]; } else { assert (xs + ys)[i] == ys[i - |xs|]; }
    }
  }

  /** The conversion of one record, as a function value. */
  function ConvertWith(formatFloat: real -> string): Row<Value> -> Result<map<string, string>, ConvertError> {
    row => ConvertRow(row, formatFloat)
  }

  /** Every record converted on its own. */
  function ConvertEach(data: seq<Row<Value>>, formatFloat: real -> string): (r: seq<Result<map<string, string>, ConvertError>>)
    ensures |r| == |data|
    ensures forall i | 0 <= i < |data| :: r[i] == ConvertRow(data[i], formatFloat)
  {
    MapEach(ConvertWith(formatFloat), data)
  }

  /**
   * `ConvertMapToStringMap`: all records, or the error of the first one that
   * fails. The records are independent, so converting each one and then
   * stopping at the first failure returns what the Go loop returns.
   */
  function ConvertMapToStringMap(data: seq<Row<Value>>, formatFloat: real -> string): (r: Result<seq<map<string, string>>, ConvertError>)
    ensures r.Success? ==> |r.value| == |data|
    ensures |data| == 0 ==> r == Success([])
  {
    Collect(ConvertEach(data, formatFloat))
  }

  /** The conversion succeeds exactly when no record holds a value of an unsupported Go type. */
  lemma ConvertSucceedsIffScalar(data: seq<Row<Value>>, formatFloat: real -> string)
    ensures ConvertMapToStringMap(data, formatFloat).Success? <==> forall i | 0 <= i < |data| :: Scalar(data[i])
  {
    var each := ConvertEach(data, formatFloat);
    CollectSucceedsIff(each);
    assert forall i | 0 <= i < |data| :: each[i].Success? == Scalar(data[i]);
  }

  /** On success, record `i` of the output is the conversion of record `i` of the input. */
  lemma ConvertRowsAgree(data: seq<Row<Value>>, formatFloat: real -> string, i: nat)
    requires ConvertMapToStringMap(data, formatFloat).Success?
    requires i < |data|
    ensures ConvertRow(data[i], formatFloat) == Success(ConvertMapToStringMap(data, formatFloat).value[i])
  {
    CollectAt(ConvertEach(data, formatFloat), i);
  }

  /** Record `i` is the first one that cannot be converted, and it reports `error`. */
  ghost predicate FailsFirstAt(data: seq<Row<Value>>, i: int, formatFloat: real -> string, error: ConvertError) {
    0 <= i < |data|
    && (forall j | 0 <= j < i :: Scalar(data[j]))
    && ConvertRow(data[i], formatFloat) == Failure(error)
  }

  /**
   * On failure, the error is the one the first record holding an unsupported
   * value reports:
   * nothing of the records before it is returned.
   */
  lemma ConvertReportsFirstFailure(data: seq<Row<Value>>, formatFloat: real -> string)
    requires ConvertMapToStringMap(data, formatFloat).Failure?
    ensures exists i :: FailsFirstAt(data, i, formatFloat, ConvertMapToStringMap(data, formatFloat).error)
  {
    var each := ConvertEach(data, formatFloat);
    var error := Collect(each).error;
    CollectFirstFailure(each);
    var i :| FirstFailureAt(each, i, error);
    forall j | 0 <= j < i ensures Scalar(data[j]) {
      assert each[j].Success?;
    }
    assert FailsFirstAt(data, i, formatFloat, error);
  }

  /** On success every record keeps its keys and every cell holds its rendering. */
  lemma ConvertCellRendered(data: seq<Row<Value>>, formatFloat: real -> string, i: nat, k: string)
    requires ConvertMapToStringMap(data, formatFloat).Success?
    requires i < |data| && k in data[i]
    ensures ConvertMapToStringMap(data, formatFloat).value[i].Keys == data[i].Keys
    ensures Stringify(data[i][k], formatFloat) == Some(ConvertMapToStringMap(data, formatFloat).value[i][k])
  {
    ConvertRowsAgree(data, formatFloat, i);
  }

  /** All-string records, as the typed records they decode from. */
  function Typed(rows: seq<map<string, string>>): (r: seq<Row<Value>>)
    ensures |r| == |rows|
    ensures forall i | 0 <= i < |r| :: r[i].Keys == rows[i].Keys
    ensures forall i, k | 0 <= i < |r| && k in rows[i] :: r[i][k] == Str(rows[i][k])
  {
    seq(|rows|, i requires 0 <= i < |rows| => map k | k in rows[i] :: Str(rows[i][k]))
  }

  /** String cells render as themselves, so converting all-string records returns them. */
  lemma ConvertStringsRoundTrip(rows: seq<map<string, string>>, formatFloat: real -> string)
    ensures ConvertMapToStringMap(Typed(rows), formatFloat) == Success(rows)
  {
    var typed := Typed(rows);
    assert forall i | 0 <= i < |typed| :: Scalar(typed[i]);
    ConvertSucceedsIffScalar(typed, formatFloat);
    var r := ConvertMapToStringMap(typed, formatFloat);
    forall i | 0 <= i < |rows| ensures r.value[i] == rows[i] {
      ConvertRowsAgree(typed, formatFloat, i);
      assert ConvertRow(typed[i], formatFloat) == Success(r.value[i]);
      MapsEqual(r.value[i], rows[i]);
    }
    assert r.value == rows;
  }

  /** The conversion works record by record: it distributes over concatenation. */
  lemma ConvertDistributes(a: seq<Row<Value>>, b: seq<Row<Value>>, formatFloat: real -> string)
    requires forall i | 0 <= i < |a| :: Scalar(a[i])
    ensures ConvertMapToStringMap(a, formatFloat).Success?
    ensures ConvertMapToStringMap(a + b, formatFloat).Success?
            <==> ConvertMapToStringMap(b, formatFloat).Success?
    ensures ConvertMapToStringMap(a + b, formatFloat).Success? ==>
            ConvertMapToStringMap(a + b, formatFloat).value
            == ConvertMapToStringMap(a, formatFloat).value + ConvertMapToStringMap(b, formatFloat).value
  {
    ConvertSucceedsIffScalar(a, formatFloat);
    MapEachConcat(ConvertWith(formatFloat), a, b);
    CollectConcat(ConvertEach(a, formatFloat), ConvertEach(b, formatFloat));
  }

  /** An integer cell renders as decimal text that reads back as the same integer. */
  lemma ConvertIntReadsBack(data: seq<Row<Value>>, formatFloat: real -> string, i: nat, k: string)
    requires ConvertMapToStringMap(data, formatFloat).Success?
    requires i < |data| && k in data[i] && data[i][k].Int?
    ensures var row := ConvertMapToStringMap(data, formatFloat).value[i];
            k in row && var s := row[k];
            |s| > 0 && (AllDigits(s) || (s[0] == '-' && AllDigits(s[1..]))) && DecimalToInt(s) == data[i][k].i
  {
    ConvertCellRendered(data, formatFloat, i, k);
  }

  /** A float cell renders through `FormatFloat(v, 'f', -1, 64)`. */
  lemma ConvertFloatRendered(data: seq<Row<Value>>, formatFloat: real -> string, i: nat, k: string)
    requires ConvertMapToStringMap(data, formatFloat).Success?
    requires i < |data| && k in data[i] && data[i][k].Float?
    ensures var row := ConvertMapToStringMap(data, formatFloat).value[i];
            k in row && row[k] == formatFloat(data[i][k].f)
  {
    ConvertCellRendered(data, formatFloat, i, k);
  }

  /** Booleans render as `true` and `false`. */
  lemma ConvertBoolDistinguishes(data: seq<Row<Value>>, formatFloat: real -> string, i: nat, k: string)
    requires ConvertMapToStringMap(data, formatFloat).Success?
    requires i < |data| && k in data[i] && data[i][k].Bool?
    ensures var row := ConvertMapToStringMap(data, formatFloat).value[i];
            k in row && row[k] == (if data[i][k].b then "true" else "false")
  {
    ConvertCellRendered(data, formatFloat, i, k);
  }
}

=== FILE: conditions.dfy ===
/**
 * The comparison grammar of filter rules: optional white space, one of `>`,
 * `<`, `=`, then a number. The three engine variants share this evaluator
 * verbatim (`checkCondition`, `checkCSVCondition`, `checkJSONCondition`).
 */
module Conditions {
  import opened Wrappers
  import opened Text

  datatype Comparison = Greater | Less | Equal

  function Symbol(op: Comparison): char {
    match op
    case Greater => '>'
    case Less => '<'
    case Equal => '='
  }

  /** The comparison itself, with the threshold on the right. */
  predicate Holds(op: Comparison, value: real, threshold: real) {
    match op
    case Greater => value > threshold
    case Less => value < threshold
    case Equal => value == threshold
  }

  /**
   * The threshold after the operator character: trimmed, then parsed; a text
   * that does not parse counts as 0 because the parse error is discarded.
   */
  function Threshold(parse: string -> Option<real>, rest: string): real {
    parse(TrimSpace(rest)).GetOr(0.0)
  }

  /** Evaluates `condition` against a numeric cell; unknown conditions hold. */
  predicate CheckCondition(parse: string -> Option<real>, value: real, condition: string) {
    var c := TrimSpace(condition);
    if StartsWith(c, '>') then value > Threshold(parse, c[1..])
    else if StartsWith(c, '<') then value < Threshold(parse, c[1..])
    else if StartsWith(c, '=') then value == Threshold(parse, c[1..])
    else true
  }

  /** With an empty literal, what follows the operator trims to nothing. */
  lemma TrimOperatorOnly(sym: char, before: string, mid: string, after: string)
    requires !IsSpace(sym) && AllSpace(before) && AllSpace(mid) && AllSpace(after)
    ensures var c := TrimSpace(before + [sym] + mid + after);
            StartsWith(c, sym) && TrimSpace(c[1..]) == ""
  {
    AllSpaceConcat(mid, after);
    assert before + [sym] + mid + after == before + [sym] + (mid + after);
    TrimSpacePadded(before, [sym], mid + after);
    assert [sym][1..] == "" + "" + "";
    TrimSpacePadded("", "", "");
  }

  lemma OperatorLiteralTrimmed(sym: char, rest: string)
    requires !IsSpace(sym) && |rest| > 0 && !IsSpace(rest[|rest| - 1])
    ensures Trimmed([sym] + rest)
  {
    assert ([sym] + rest)[|rest|] == rest[|rest| - 1];
  }

  /** With a non-empty literal, what follows the operator trims to the literal. */
  lemma TrimOperatorLiteral(sym: char, before: string, mid: string, literal: string, after: string)
    requires !IsSpace(sym) && AllSpace(before) && AllSpace(mid) && AllSpace(after)
    requires Trimmed(literal) && |literal| > 0
    ensures var c := TrimSpace(before + [sym] + mid + literal + after);
            StartsWith(c, sym) && TrimSpace(c[1..]) == literal
  {
    var core := [sym] + (mid + literal);
    OperatorLiteralTrimmed(sym, mid + literal);
    assert before + [sym] + mid + literal + after == before + core + after;
    TrimSpacePadded(before, core, after);
    assert core[1..] == mid + literal;
    TrimSpaceLeadingPad(mid, literal);
  }

  /** Trimming a padded rendering leaves the operator followed by text that trims to the literal. */
  lemma TrimRendered(sym: char, before: string, mid: string, literal: string, after: string)
    requires !IsSpace(sym) && AllSpace(before) && AllSpace(mid) && AllSpace(after) && Trimmed(literal)
    ensures var c := TrimSpace(before + [sym] + mid + literal + after);
            StartsWith(c, sym) && TrimSpace(c[1..]) == literal
  {
    if |literal| == 0 {
      assert before + [sym] + mid + literal + after == before + [sym] + mid + after;
      TrimOperatorOnly(sym, before, mid, after);
    } else {
      TrimOperatorLiteral(sym, before, mid, literal, after);
    }
  }

  /**
   * A condition written as operator plus literal, with any white-space
   * padding, compares the cell with the parsed literal, or with 0 when the
   * literal does not parse.
   */
  lemma CheckConditionRendered(parse: string -> Option<real>, value: real, op: Comparison,
                               before: string, mid: string, literal: string, after: string)
    requires AllSpace(before) && AllSpace(mid) && AllSpace(after) && Trimmed(literal)
    ensures CheckCondition(parse, value, before + [Symbol(op)] + mid + literal + after)
            == Holds(op, value, parse(literal).GetOr(0.0))
  {
    var cond := before + [Symbol(op)] + mid + literal + after;
    TrimRendered(Symbol(op), before, mid, literal, after);
    var c := TrimSpace(cond);
    assert Threshold(parse, c[1..]) == parse(literal).GetOr(0.0);
    match op
    case Greater =>
    case Less => assert !StartsWith(c, '>');
    case Equal => assert !StartsWith(c, '>') && !StartsWith(c, '<');
  }

  /**
   * Any condition whose trimmed form does not start with `>`, `<` or `=`,
   * the empty condition included, keeps every value.
   */
  lemma UnknownConditionHolds(parse: string -> Option<real>, value: real, condition: string)
    requires var c := TrimSpace(condition); !StartsWith(c, '>') && !StartsWith(c, '<') && !StartsWith(c, '=')
    ensures CheckCondition(parse, value, condition)
  {
  }

  /** The empty condition and a blank one hold for every value. */
  lemma BlankConditionHolds(parse: string -> Option<real>, value: real, blank: string)
    requires AllSpace(blank)
    ensures CheckCondition(parse, value, blank)
  {
    assert blank + "" + "" == blank;
    TrimSpacePadded(blank, "", "");
  }
}

=== FILE: firebase.dfy ===
/**
 * The document-store rewrite: every record's `name` is overwritten with the
 * configured value, then every configured extra field is written into it.
 */
module Firebase {
  import opened Values
  import opened Transform

  /** The key the rewrite renames. */
  const NameKey := "name"

  /** The configured extra fields, as the string cells they become. */
  function ExtraFields(m: MappingRules): (r: Row<Value>)
    ensures r.Keys == m.addField.Keys
    ensures forall k | k in r :: r[k] == Str(m.addField[k])
  {
    map k | k in m.addField :: Str(m.addField[k])
  }

  /** One record: rename first, then the extra fields, which win on a clash. */
  function RewriteRow(row: Row<Value>, m: MappingRules): (r: Row<Value>)
    ensures r.Keys == row.Keys + m.addField.Keys
    ensures forall k | k in m.addField :: r[k] == Str(m.addField[k])
    ensures NameKey in row && NameKey !in m.addField ==> r[NameKey] == Str(m.nameChange)
    ensures forall k | k in row && k != NameKey && k !in m.addField :: r[k] == row[k]
  {
    var renamed := if NameKey in row then row[NameKey := Str(m.nameChange)] else row;
    renamed + ExtraFields(m)
  }

  /** `ApplyFirebaseTransformations`: every record rewritten on its own. */
  function ApplyFirebaseTransformations(data: seq<Row<Value>>, m: MappingRules): (r: seq<Row<Value>>)
    ensures |r| == |data|
    ensures forall i | 0 <= i < |r| :: r[i] == RewriteRow(data[i], m)
  {
    seq(|data|, i requires 0 <= i < |data| => RewriteRow(data[i], m))
  }

  /** A record gains `name` from the rewrite only when an extra field supplies it. */
  lemma NameNotInvented(data: seq<Row<Value>>, m: MappingRules, i: nat)
    requires i < |data|
    ensures NameKey in ApplyFirebaseTransformations(data, m)[i] <==> NameKey in data[i] || NameKey in m.addField
  {
  }

  /** Rewriting a rewritten record changes nothing: both writes are idempotent. */
  lemma RewriteIdempotent(row: Row<Value>, m: MappingRules)
    ensures RewriteRow(RewriteRow(row, m), m) == RewriteRow(row, m)
  {
    var once := RewriteRow(row, m);
    var twice := RewriteRow(once, m);
    MapsEqual(twice, once);
  }

  /** Applying the rewrite twice is the same as applying it once. */
  lemma FirebaseIdempotent(data: seq<Row<Value>>, m: MappingRules)
    ensures ApplyFirebaseTransformations(ApplyFirebaseTransformations(data, m), m)
            == ApplyFirebaseTransformations(data, m)
  {
    var once := ApplyFirebaseTransformations(data, m);
    forall i | 0 <= i < |data| ensures RewriteRow(once[i], m) == once[i] {
      RewriteIdempotent(data[i], m);
    }
  }

  /** Records are rewritten independently: the rewrite distributes over concatenation. */
  lemma FirebaseDistributes(a: seq<Row<Value>>, b: seq<Row<Value>>, m: MappingRules)
    ensures ApplyFirebaseTransformations(a + b, m)
            == ApplyFirebaseTransformations(a, m) + ApplyFirebaseTransformations(b, m)
  {
  }

  /** Without extra fields, records that have no `name` pass through unchanged. */
  lemma FirebaseWithoutFields(data: seq<Row<Value>>, m: MappingRules)
    requires m.addField == map[]
    requires forall i | 0 <= i < |data| :: NameKey !in data[i]
    ensures ApplyFirebaseTransformations(data, m) == data
  {
    var r := ApplyFirebaseTransformations(data, m);
    forall i | 0 <= i < |data| ensures r[i] == data[i] {
      MapsEqual(r[i], data[i]);
    }
  }
}

=== FILE: keyorder.dfy ===
/**
 * A fixed iteration order over a record's keys. Go visits map entries in an
 * unspecified order; the model settles on ascending lexicographic order of
 * code points so that every order-dependent step is deterministic.
 */
module KeyOrder {

  /** Lexicographic "less than or equal" on strings. */
  predicate StrLe(a: string, b: string)
    decreases |a|
  {
    |a| == 0 || (|b| > 0 && (a[0] < b[0] || (a[0] == b[0] && StrLe(a[1..], b[1..]))))
  }

  lemma {:induction false} StrLeReflexive(a: string)
    ensures StrLe(a, a)
    decreases |a|
  {
    if |a| > 0 {
      StrLeReflexive(a[1..]);
    }
  }

  lemma {:induction false} StrLeTotal(a: string, b: string)
    ensures StrLe(a, b) || StrLe(b, a)
    decreases |a|
  {
    if |a| > 0 && |b| > 0 && a[0] == b[0] {
      StrLeTotal(a[1..], b[1..]);
    }
  }

  lemma {:induction false} StrLeAntisymmetric(a: string, b: string)
    requires StrLe(a, b) && StrLe(b, a)
    ensures a == b
    decreases |a|
  {
    if |a| > 0 {
      StrLeAntisymmetric(a[1..], b[1..]);
      assert a == [a[0]] + a[1..] && b == [b[0]] + b[1..];
    }
  }

  lemma {:induction false} StrLeTransitive(a: string, b: string, c: string)
    requires StrLe(a, b) && StrLe(b, c)
    ensures StrLe(a, c)
    decreases |a|
  {
    if |a| > 0 && a[0] == b[0] && b[0] == c[0] {
      StrLeTransitive(a[1..], b[1..], c[1..]);
    }
  }

  /** `m` is a least element of `s`. */
  predicate IsLeast(m: string, s: set<string>) {
    m in s && forall y | y in s :: StrLe(m, y)
  }

  lemma {:induction false} LeastExists(s: set<string>)
    requires s != {}
    ensures exists m :: IsLeast(m, s)
    decreases |s|
  {
    var x :| x in s;
    StrLeReflexive(x);
    if s == {x} {
      assert IsLeast(x, s);
    } else {
      LeastExists(s - {x});
      var m :| IsLeast(m, s - {x});
      StrLeTotal(x, m);
      if StrLe(x, m) {
        forall y | y in s ensures StrLe(x, y) {
          if y != x { StrLeTransitive(x, m, y); }
        }
        assert IsLeast(x, s);
      } else {
        assert IsLeast(m, s);
      }
    }
  }

  lemma LeastUnique(m1: string, m2: string, s: set<string>)
    requires IsLeast(m1, s) && IsLeast(m2, s)
    ensures m1 == m2
  {
    StrLeAntisymmetric(m1, m2);
  }

  /** The smallest key of a non-empty key set. */
  function Least(s: set<string>): (m: string)
    requires s != {}
    ensures IsLeast(m, s)
  {
    LeastExists(s);
    forall m1, m2 | IsLeast(m1, s) && IsLeast(m2, s) ensures m1 == m2 {
      LeastUnique(m1, m2, s);
    }
    var m :| IsLeast(m, s);
    m
  }

  /** No key is listed twice. */
  predicate Distinct(ks: seq<string>) {
    forall i, j | 0 <= i < j < |ks| :: ks[i] != ks[j]
  }

  /** The keys of `s`, each exactly once, in ascending order (see `SortedKeysAscending`). */
  function SortedKeys(s: set<string>): (ks: seq<string>)
    ensures |ks| == |s| && Distinct(ks)
    ensures forall k :: k in ks <==> k in s
    decreases |s|
  {
    if s == {} then []
    else
      var m := Least(s);
      var rest := SortedKeys(s - {m});
      assert forall k :: k in [m] + rest <==> k in s;
      [m] + rest
  }

  /** Each key of the enumeration is at most every later one. */
  lemma {:induction false} SortedKeysAscending(s: set<string>)
    ensures forall i, j | 0 <= i < j < |SortedKeys(s)| :: StrLe(SortedKeys(s)[i], SortedKeys(s)[j])
    decreases |s|
  {
    if s != {} {
      var m := Least(s);
      var rest := SortedKeys(s - {m});
      SortedKeysAscending(s - {m});
      assert SortedKeys(s) == [m] + rest;
      forall i, j | 0 <= i < j < |SortedKeys(s)| ensures StrLe(SortedKeys(s)[i], SortedKeys(s)[j]) {
        if i > 0 {
          assert SortedKeys(s)[i] == rest[i - 1] && SortedKeys(s)[j] == rest[j - 1];
        } else {
          assert SortedKeys(s)[j] == rest[j - 1] && rest[j - 1] in s;
        }
      }
    }
  }
}

=== FILE: text.dfy ===
/**
 * The handful of Go `strings` / `strconv` helpers the transformation engine
 * relies on, written out over `seq<char>`.
 */
module Text {

  /** Go's `unicode.IsSpace`: ASCII white space plus the Unicode White_Space code points. */
  predicate IsSpace(c: char) {
    var n := c as int;
    || n == 0x09 || n == 0x0A || n == 0x0B || n == 0x0C || n == 0x0D || n == 0x20
    || n == 0x85 || n == 0xA0 || n == 0x1680
    || (0x2000 <= n <= 0x200A)
    || n == 0x2028 || n == 0x2029 || n == 0x202F || n == 0x205F || n == 0x3000
  }

  /** Every character of `s` is white space. */
  predicate AllSpace(s: string) {
    forall i | 0 <= i < |s| :: IsSpace(s[i])
  }

  /** `s` neither starts nor ends with white space. */
  predicate Trimmed(s: string) {
    |s| == 0 || (!IsSpace(s[0]) && !IsSpace(s[|s| - 1]))
  }

  /** Drops leading white space; the result is a suffix of `s`. */
  function TrimLeft(s: string): (r: string)
    ensures |r| <= |s| && r == s[|s| - |r|..]
    ensures |r| == 0 || !IsSpace(r[0])
  {
    if |s| > 0 && IsSpace(s[0]) then
      TrimLeft(s[1..])
    else s
  }

  /** Drops trailing white space; the result is a prefix of `s`. */
  function TrimRight(s: string): (r: string)
    ensures |r| <= |s| && r == s[..|r|]
    ensures |r| == 0 || !IsSpace(r[|r| - 1])
  {
    if |s| > 0 && IsSpace(s[|s| - 1]) then
      TrimRight(s[..|s| - 1])
    else s
  }

  /** Go's `strings.TrimSpace`: leading and trailing white space removed. */
  function TrimSpace(s: string): (r: string)
    ensures Trimmed(r)
    ensures |r| <= |s|
  {
    TrimRight(TrimLeft(s))
  }

  lemma AllSpaceConcat(a: string, b: string)
    requires AllSpace(a) && AllSpace(b)
    ensures AllSpace(a + b)
  {
    assert forall i | 0 <= i < |a + b| :: (a + b)[i] == if i < |a| then a[i] else b[i - |a|];
  }

  lemma {:induction false} TrimLeftPadded(ws: string, s: string)
    requires AllSpace(ws)
    requires |s| == 0 || !IsSpace(s[0])
    ensures TrimLeft(ws + s) == s
    decreases |ws|
  {
    if |ws| > 0 {
      assert (ws + s)[1..] == ws[1..] + s;
      TrimLeftPadded(ws[1..], s);
    } else {
      assert ws + s == s;
    }
  }

  lemma {:induction false} TrimRightPadded(s: string, ws: string)
    requires AllSpace(ws)
    requires |s| == 0 || !IsSpace(s[|s| - 1])
    ensures TrimRight(s + ws) == s
    decreases |ws|
  {
    if |ws| > 0 {
      assert (s + ws)[..|s + ws| - 1] == s + ws[..|ws| - 1];
      TrimRightPadded(s, ws[..|ws| - 1]);
    } else {
      assert s + ws == s;
    }
  }

  /** Trimming removes exactly the white-space padding around an already trimmed string. */
  lemma TrimSpacePadded(before: string, s: string, after: string)
    requires AllSpace(before) && AllSpace(after) && Trimmed(s)
    ensures TrimSpace(before + s + after) == s
  {
    if |s| == 0 {
      assert before + s + after == before + after;
      AllSpaceConcat(before, after);
      TrimLeftPadded(before + after, "");
      assert before + after + "" == before + after;
    } else {
      assert before + s + after == before + (s + after);
      TrimLeftPadded(before, s + after);
      TrimRightPadded(s, after);
    }
  }

  /** An already trimmed string is left as it is. */
  lemma TrimSpaceOfTrimmed(s: string)
    requires Trimmed(s)
    ensures TrimSpace(s) == s
  {
  }

  /** TrimSpace is idempotent. */
  lemma TrimSpaceIdempotent(s: string)
    ensures TrimSpace(TrimSpace(s)) == TrimSpace(s)
  {
    TrimSpaceOfTrimmed(TrimSpace(s));
  }

  /** Leading white space in front of a trimmed string is all that trimming removes. */
  lemma TrimSpaceLeadingPad(ws: string, s: string)
    requires AllSpace(ws) && Trimmed(s)
    ensures TrimSpace(ws + s) == s
  {
    TrimLeftPadded(ws, s);
  }

  /** Go's `strings.HasPrefix` for a one-character prefix. */
  predicate StartsWith(s: string, c: char) {
    |s| > 0 && s[0] == c
  }

  /** Go's `strings.ToLower`, restricted to the ASCII letters. */
  function LowerChar(c: char): (r: char)
    ensures 'A' <= c <= 'Z' ==> 'a' <= r <= 'z' && r as int == c as int + 32
    ensures !('A' <= c <= 'Z') ==> r == c
  {
    if 'A' <= c <= 'Z' then (c as int + 32) as char else c
  }

  function Lower(s: string): (r: string)
    ensures |r| == |s|
    ensures forall i | 0 <= i < |s| :: r[i] == LowerChar(s[i])
  {
    if |s| == 0 then "" else [LowerChar(s[0])] + Lower(s[1..])
  }

  /** Lower-casing twice is lower-casing once. */
  lemma LowerIdempotent(s: string)
    ensures Lower(Lower(s)) == Lower(s)
  {
    assert forall i | 0 <= i < |s| :: LowerChar(LowerChar(s[i])) == LowerChar(s[i]);
  }

  /** `pat` occurs in `s` starting at index `i`. */
  predicate OccursAt(s: string, pat: string, i: nat) {
    i + |pat| <= |s| && s[i..i + |pat|] == pat
  }

  /**
   * Go's `strings.Replace(s, pat, rep, 1)`: the first occurrence of `pat` is
   * replaced; an empty `pat` matches at the very start.
   */
  function ReplaceFirst(s: string, pat: string, rep: string): (r: string)
    decreases |s|
  {
    if |pat| == 0 then rep + s
    else if |s| < |pat| then s
    else if s[..|pat|] == pat then rep + s[|pat|..]
    else [s[0]] + ReplaceFirst(s[1..], pat, rep)
  }

  /** Without an occurrence of `pat` the string is returned unchanged. */
  lemma {:induction false} ReplaceFirstAbsent(s: string, pat: string, rep: string)
    requires |pat| > 0
    requires forall i: nat | i <= |s| :: !OccursAt(s, pat, i)
    ensures ReplaceFirst(s, pat, rep) == s
    decreases |s|
  {
    if |s| >= |pat| {
      assert !OccursAt(s, pat, 0);
      forall i: nat | i <= |s[1..]|
        ensures !OccursAt(s[1..], pat, i)
      {
        assert !OccursAt(s, pat, i + 1);
        if i + |pat| <= |s[1..]| {
          assert s[1..][i..i + |pat|] == s[i + 1..i + 1 + |pat|];
        }
      }
      ReplaceFirstAbsent(s[1..], pat, rep);
      assert s == [s[0]] + s[1..];
    }
  }

  /**
   * The first occurrence, and only the first, is replaced: when `pat` does
   * not occur in `a + pat` before index `|a|`, `a + pat + b` becomes `a + rep + b`.
   */
  lemma {:induction false} ReplaceFirstAt(a: string, pat: string, b: string, rep: string)
    requires |pat| > 0
    requires forall i: nat | i < |a| :: !OccursAt(a + pat + b, pat, i)
    ensures ReplaceFirst(a + pat + b, pat, rep) == a + rep + b
    decreases |a|
  {
    var s := a + pat + b;
    if |a| == 0 {
      assert s == pat + b;
      assert s[..|pat|] == pat;
      assert s[|pat|..] == b;
    } else {
      assert !OccursAt(s, pat, 0);
      assert s[1..] == a[1..] + pat + b;
      forall i: nat | i < |a[1..]|
        ensures !OccursAt(a[1..] + pat + b, pat, i)
      {
        assert !OccursAt(s, pat, i + 1);
        assert s[1..][i..i + |pat|] == s[i + 1..i + 1 + |pat|];
      }
      ReplaceFirstAt(a[1..], pat, b, rep);
      assert a + rep + b == [a[0]] + (a[1..] + rep + b);
    }
  }

  /** A pattern holding a character the string lacks occurs nowhere in it. */
  lemma NoOccurrenceWithout(s: string, pat: string, j: nat)
    requires j < |pat| && pat[j] !in s
    ensures forall i: nat | i <= |s| :: !OccursAt(s, pat, i)
  {
    forall i: nat | i <= |s| ensures !OccursAt(s, pat, i) {
      if i + |pat| <= |s| {
        assert s[i..i + |pat|][j] == s[i + j] && s[i + j] in s;
      }
    }
  }

  /** A prefix that lacks the pattern's first character holds no occurrence. */
  lemma NoOccurrenceBefore(a: string, pat: string, b: string)
    requires |pat| > 0 && pat[0] !in a
    ensures forall i: nat | i < |a| :: !OccursAt(a + pat + b, pat, i)
  {
    var s := a + pat + b;
    forall i: nat | i < |a| ensures !OccursAt(s, pat, i) {
      assert s[i] == a[i] != pat[0];
      if i + |pat| <= |s| {
        assert s[i..i + |pat|][0] == s[i];
      }
    }
  }

  /** A decimal digit character and its value. */
  function DigitChar(d: nat): (c: char)
    requires d < 10
    ensures '0' <= c <= '9'
  {
    ('0' as int + d) as char
  }

  function DigitValue(c: char): (d: nat)
    requires '0' <= c <= '9'
    ensures d < 10 && DigitChar(d) == c
  {
    c as int - '0' as int
  }

  predicate AllDigits(s: string) {
    forall i | 0 <= i < |s| :: '0' <= s[i] <= '9'
  }

  /** Decimal digits of a natural number, most significant first, no leading zeros. */
  function NatToDecimal(n: nat): (r: string)
    ensures |r| > 0 && AllDigits(r)
    ensures |r| > 1 ==> r[0] != '0'
    decreases n
  {
    if n < 10 then [DigitChar(n)] else NatToDecimal(n / 10) + [DigitChar(n % 10)]
  }

  /** Reads a string of decimal digits back as a number. */
  function DecimalToNat(s: string): nat
    requires AllDigits(s)
  {
    if |s| == 0 then 0 else DecimalToNat(s[..|s| - 1]) * 10 + DigitValue(s[|s| - 1])
  }

  lemma {:induction false} DecimalRoundTrip(n: nat)
    ensures DecimalToNat(NatToDecimal(n)) == n
    decreases n
  {
    var r := NatToDecimal(n);
    if n >= 10 {
      DecimalRoundTrip(n / 10);
      assert r[..|r| - 1] == NatToDecimal(n / 10);
    }
  }

  /** Go's `strconv.Itoa` / `fmt.Sprintf("%d", n)`: optional minus sign, then the digits. */
  function IntToDecimal(n: int): (r: string)
    ensures |r| > 0
    ensures n < 0 <==> r[0] == '-'
  {
    if n < 0 then "-" + NatToDecimal(-n) else NatToDecimal(n)
  }

  /** Reads a `%d` rendering back. */
  function DecimalToInt(s: string): int
    requires |s| > 0
    requires AllDigits(s) || (s[0] == '-' && AllDigits(s[1..]))
  {
    if s[0] == '-' then -(DecimalToNat(s[1..]) as int) else DecimalToNat(s)
  }

  /** The decimal rendering of an integer reads back as that integer. */
  lemma IntDecimalRoundTrip(n: int)
    ensures DecimalToInt(IntToDecimal(n)) == n
  {
    if n < 0 {
      DecimalRoundTrip(-n);
      assert IntToDecimal(n)[1..] == NatToDecimal(-n);
    } else {
      DecimalRoundTrip(n);
    }
  }
}

=== FILE: transform.dfy ===
/**
 * The rule interpreter of the transformation package, written once and
 * parameterised by what varies between its three hand-copied variants: how
 * a cell is read as a number, what a lookup of a missing key yields, how a
 * condition is evaluated, which placeholder the output-name pattern uses, and
 * how sum and count results are stored.
 *
 * Every stage is a pure function from a sequence of records to a new one;
 * the in-place updates of the Go code are not visible to its callers' later
 * reads in any way the model needs, so they are not modelled.
 */
module Transform {
  import opened Wrappers
  import opened Text
  import opened KeyOrder

  /** One record: column name to cell. */
  type Row<V> = map<string, V>

  datatype FilterRule = FilterRule(column: string, condition: string)

  /** `pattern` is the rule's `as` field, e.g. `total_<column>`. */
  datatype AggregationRule = AggregationRule(operation: string, column: string, pattern: string)

  /**
   * `nameChange` and `addField` are read only by the document-store rewrite;
   * the engine itself looks at `dynamicMapping` alone.
   */
  datatype MappingRules = MappingRules(nameChange: string, addField: map<string, string>, dynamicMapping: bool)

  datatype Rules = Rules(filters: seq<FilterRule>, mapping: MappingRules, aggregations: seq<AggregationRule>)

  /** What distinguishes one variant of the engine from another. */
  datatype Engine<!V> = Engine(
    numeric: V -> Option<real>,  // is the cell numeric, and as which number
    missing: V,                  // Go's zero value, read for a missing key
    check: (real, string) -> bool, // the condition evaluator of the variant
    placeholder: string,         // replaced by the column name in output names
    encodeSum: real -> V,        // how a sum is stored
    encodeCount: int -> V)       // how a count is stored

  // ---------------------------------------------------------------- filter

  /**
   * One rule against one row. A present column, or the literal column `*`,
   * is looked up (a missing `*` reads the zero value); only a numeric cell is
   * compared, anything else lets the row through.
   */
  predicate RulePasses<V>(e: Engine<V>, row: Row<V>, rule: FilterRule) {
    if rule.column in row || rule.column == "*" then
      var value := if rule.column in row then row[rule.column] else e.missing;
      match e.numeric(value)
      case Some(x) => e.check(x, rule.condition)
      case None => true
    else true
  }

  /** The `includeRow` accumulator: rules folded left to right with `&&`. */
  predicate KeepRow<V>(e: Engine<V>, row: Row<V>, filters: seq<FilterRule>)
    decreases |filters|
  {
    if |filters| == 0 then true
    else KeepRow(e, row, filters[..|filters| - 1]) && RulePasses(e, row, filters[|filters| - 1])
  }

  /** A row is kept exactly when every rule lets it through. */
  lemma {:induction false} KeepRowIsConjunction<V>(e: Engine<V>, row: Row<V>, filters: seq<FilterRule>)
    ensures KeepRow(e, row, filters) <==> forall i | 0 <= i < |filters| :: RulePasses(e, row, filters[i])
    decreases |filters|
  {
    if |filters| > 0 {
      var n := |filters| - 1;
      var init := filters[..n];
      KeepRowIsConjunction(e, row, init);
      if KeepRow(e, row, filters) {
        forall i | 0 <= i < |filters| ensures RulePasses(e, row, filters[i]) {
          if i < n { assert filters[i] == init[i]; }
        }
      }
      if forall i | 0 <= i < |filters| :: RulePasses(e, row, filters[i]) {
        forall i | 0 <= i < |init| ensures RulePasses(e, row, init[i]) {
          assert init[i] == filters[i];
        }
      }
    }
  }

  /** The filter stage: the rows every rule lets through, in input order. */
  function ApplyFilters<V>(e: Engine<V>, data: seq<Row<V>>, filters: seq<FilterRule>): (r: seq<Row<V>>)
    ensures |r| <= |data|
    ensures forall i | 0 <= i < |r| :: KeepRow(e, r[i], filters)
    ensures forall row | row in r :: row in data
    decreases |data|
  {
    if |data| == 0 then []
    else
      var rest := ApplyFilters(e, data[1..], filters);
      if KeepRow(e, data[0], filters) then [data[0]] + rest else rest
  }

  /** `a` is `b` with some elements left out, order kept. */
  ghost predicate IsSubsequence<T>(a: seq<T>, b: seq<T>)
    decreases |b|
  {
    if |a| == 0 then true
    else if |b| == 0 then false
    else (a[0] == b[0] && IsSubsequence(a[1..], b[1..])) || IsSubsequence(a, b[1..])
  }

  /** The filter keeps rows in their input order and invents none. */
  lemma {:induction false} FilterIsSubsequence<V>(e: Engine<V>, data: seq<Row<V>>, filters: seq<FilterRule>)
    ensures IsSubsequence(ApplyFilters(e, data, filters), data)
    decreases |data|
  {
    if |data| > 0 {
      FilterIsSubsequence(e, data[1..], filters);
      var rest := ApplyFilters(e, data[1..], filters);
      if KeepRow(e, data[0], filters) {
        assert ([data[0]] + rest)[1..] == rest;
      }
    }
  }

  /** A row is in the output exactly when it is in the input and every rule lets it through. */
  lemma {:induction false} FilterMembership<V>(e: Engine<V>, data: seq<Row<V>>, filters: seq<FilterRule>, row: Row<V>)
    ensures row in ApplyFilters(e, data, filters) <==> row in data && KeepRow(e, row, filters)
    decreases |data|
  {
    if |data| > 0 {
      FilterMembership(e, data[1..], filters, row);
      assert row in data <==> row == data[0] || row in data[1..];
    }
  }

  /** Filtering twice is filtering once. */
  lemma {:induction false} FilterIdempotent<V>(e: Engine<V>, data: seq<Row<V>>, filters: seq<FilterRule>)
    ensures ApplyFilters(e, ApplyFilters(e, data, filters), filters) == ApplyFilters(e, data, filters)
    decreases |data|
  {
    if |data| > 0 {
      FilterIdempotent(e, data[1..], filters);
      var rest := ApplyFilters(e, data[1..], filters);
      if KeepRow(e, data[0], filters) {
        assert ([data[0]] + rest)[1..] == rest;
      }
    }
  }

  /** Without rules every row is kept. */
  lemma {:induction false} FilterWithoutRules<V>(e: Engine<V>, data: seq<Row<V>>)
    ensures ApplyFilters(e, data, []) == data
    decreases |data|
  {
    if |data| > 0 {
      FilterWithoutRules(e, data[1..]);
      assert data == [data[0]] + data[1..];
    }
  }

  /** A rule that lets every row through can be dropped from the rule list. */
  lemma {:induction false} FilterIgnoresVacuousRule<V>(e: Engine<V>, data: seq<Row<V>>, filters: seq<FilterRule>, rule: FilterRule)
    requires forall i | 0 <= i < |data| :: RulePasses(e, data[i], rule)
    ensures ApplyFilters(e, data, filters + [rule]) == ApplyFilters(e, data, filters)
    decreases |data|
  {
    if |data| > 0 {
      assert (filters + [rule])[..|filters + [rule]| - 1] == filters;
      FilterIgnoresVacuousRule(e, data[1..], filters, rule);
    }
  }

  /**
   * A rule never drops a row whose column is absent (other than `*`) or
   * holds a non-numeric cell.
   */
  lemma AbsentOrNonNumericPasses<V>(e: Engine<V>, row: Row<V>, rule: FilterRule)
    requires rule.column != "*"
    requires rule.column !in row || e.numeric(row[rule.column]).None?
    ensures RulePasses(e, row, rule)
  {
  }

  /**
   * A `*` rule looks up the literal key `*`; when no row has that key and the
   * zero value is not numeric, adding the rule changes nothing.
   */
  lemma StarRuleNeverConstrains<V>(e: Engine<V>, data: seq<Row<V>>, filters: seq<FilterRule>, condition: string)
    requires e.numeric(e.missing).None?
    requires forall i | 0 <= i < |data| :: "*" !in data[i]
    ensures ApplyFilters(e, data, filters + [FilterRule("*", condition)]) == ApplyFilters(e, data, filters)
  {
    FilterIgnoresVacuousRule(e, data, filters, FilterRule("*", condition));
  }

  // ------------------------------------------------------- dynamic mapping

  /** Copies `row[k]` to `Lower(k)` for each `k` of `ks` in turn; later writes win. */
  function LowerInto<V>(row: Row<V>, ks: seq<string>, acc: Row<V>): (r: Row<V>)
    requires forall k | k in ks :: k in row
    ensures r.Keys == acc.Keys + (set k | k in ks :: Lower(k))
    ensures forall k' | k' in r ::
              (k' in acc && r[k'] == acc[k']) || (exists k :: k in ks && Lower(k) == k' && r[k'] == row[k])
    decreases |ks|
  {
    if |ks| == 0 then acc
    else
      var r := LowerInto(row, ks[1..], acc[Lower(ks[0]) := row[ks[0]]]);
      assert (set k | k in ks :: Lower(k)) == {Lower(ks[0])} + (set k | k in ks[1..] :: Lower(k));
      r
  }

  /**
   * One row with every key lower-cased. Keys that differ only in case
   * collide; the one visited last wins.
   */
  function LowerRow<V>(row: Row<V>): (r: Row<V>)
    ensures r.Keys == set k | k in row :: Lower(k)
    ensures forall k' | k' in r :: exists k :: k in row && Lower(k) == k' && r[k'] == row[k]
  {
    LowerInto(row, SortedKeys(row.Keys), map[])
  }

  /** The dynamic-mapping stage. */
  function ApplyDynamicMapping<V>(data: seq<Row<V>>): (r: seq<Row<V>>)
    ensures |r| == |data|
    ensures forall i | 0 <= i < |r| :: r[i].Keys == set k | k in data[i] :: Lower(k)
    ensures forall i | 0 <= i < |r| :: forall k | k in r[i] :: Lower(k) == k
    ensures forall i | 0 <= i < |r| :: forall k' | k' in r[i] :: exists k :: k in data[i] && Lower(k) == k' && r[i][k'] == data[i][k]
  {
    var r := seq(|data|, i requires 0 <= i < |data| => LowerRow(data[i]));
    forall i, k | 0 <= i < |r| && k in r[i] ensures Lower(k) == k {
      var k0 :| k0 in data[i] && Lower(k0) == k;
      LowerIdempotent(k0);
    }
    r
  }

  /** Lower-case keys do not collide in `row`. */
  predicate CaseDistinct<V>(row: Row<V>) {
    forall k1, k2 | k1 in row && k2 in row && Lower(k1) == Lower(k2) :: k1 == k2
  }

  /** Without case collisions every value lands, unchanged, under its lower-cased key. */
  lemma LowerRowKeepsValues<V>(row: Row<V>, k: string)
    requires CaseDistinct(row)
    requires k in row
    ensures Lower(k) in LowerRow(row) && LowerRow(row)[Lower(k)] == row[k]
  {
    var r := LowerRow(row);
    assert Lower(k) in r;
    var k0 :| k0 in row && Lower(k0) == Lower(k) && r[Lower(k)] == row[k0];
  }

  /** Every key of a lower-cased row is lower case. */
  lemma LowerRowKeysAreLower<V>(row: Row<V>)
    ensures forall k | k in LowerRow(row) :: Lower(k) == k
  {
    var m := LowerRow(row);
    forall k | k in m ensures Lower(k) == k {
      var k0 :| k0 in row && Lower(k0) == k;
      LowerIdempotent(k0);
    }
  }

  /** Two rows with the same keys and the same value under each key are equal. */
  lemma MapsEqual<V>(a: Row<V>, b: Row<V>)
    requires a.Keys == b.Keys
    requires forall k | k in a :: a[k] == b[k]
    ensures a == b
  {
  }

  /** Lower-casing a row whose keys are all lower case keeps its key set. */
  lemma LowerRowSameKeys<V>(m: Row<V>)
    requires forall k | k in m :: Lower(k) == k
    ensures LowerRow(m).Keys == m.Keys
  {
    var mm := LowerRow(m);
    var lowered := set k | k in m :: Lower(k);
    assert mm.Keys == lowered;
    forall k | k in lowered ensures k in m {
      var k0 :| k0 in m && Lower(k0) == k;
    }
    forall k | k in m ensures k in lowered {
      assert Lower(k) == k;
    }
  }

  /** Keys that are already lower case cannot collide when lower-cased. */
  lemma LowerKeysDistinct<V>(m: Row<V>)
    requires forall k | k in m :: Lower(k) == k
    ensures CaseDistinct(m)
  {
  }

  /** A row whose keys are all lower case is its own lower-cased form. */
  lemma LowerRowOfLowerKeys<V>(m: Row<V>)
    requires forall k | k in m :: Lower(k) == k
    ensures LowerRow(m) == m
  {
    var mm := LowerRow(m);
    LowerRowSameKeys(m);
    LowerKeysDistinct(m);
    forall k | k in m ensures mm[k] == m[k] {
      LowerRowKeepsValues(m, k);
    }
    MapsEqual(mm, m);
  }

  /** Lower-casing an already lower-cased row changes nothing. */
  lemma LowerRowIdempotent<V>(row: Row<V>)
    ensures LowerRow(LowerRow(row)) == LowerRow(row)
  {
    LowerRowKeysAreLower(row);
    LowerRowOfLowerKeys(LowerRow(row));
  }

  /** Dynamic mapping is idempotent. */
  lemma DynamicMappingIdempotent<V>(data: seq<Row<V>>)
    ensures ApplyDynamicMapping(ApplyDynamicMapping(data)) == ApplyDynamicMapping(data)
  {
    var once := ApplyDynamicMapping(data);
    forall i | 0 <= i < |data| ensures ApplyDynamicMapping(once)[i] == once[i] {
      LowerRowIdempotent(data[i]);
    }
  }

  // ------------------------------------------------------------ aggregation

  /** The row holds a numeric cell under `column`. */
  predicate HasNumber<V>(e: Engine<V>, row: Row<V>, column: string) {
    column in row && e.numeric(row[column]).Some?
  }

  /** The running float total, accumulated in row order. */
  function SumOf<V>(e: Engine<V>, data: seq<Row<V>>, column: string): real
    decreases |data|
  {
    if |data| == 0 then 0.0
    else
      var last := data[|data| - 1];
      SumOf(e, data[..|data| - 1], column) + (if HasNumber(e, last, column) then e.numeric(last[column]).value else 0.0)
  }

  /** How many rows hold a numeric cell under `column`. */
  function CountOf<V>(e: Engine<V>, data: seq<Row<V>>, column: string): (n: nat)
    ensures n <= |data|
    decreases |data|
  {
    if |data| == 0 then 0
    else CountOf(e, data[..|data| - 1], column) + (if HasNumber(e, data[|data| - 1], column) then 1 else 0)
  }

  /** Positions of the rows that hold a numeric cell under `column`. */
  function NumericRows<V>(e: Engine<V>, data: seq<Row<V>>, column: string): set<nat> {
    set i: nat | i < |data| && HasNumber(e, data[i], column)
  }

  /** The count is the number of rows with a numeric cell, not the number of rows. */
  lemma {:induction false} CountIsNumericRows<V>(e: Engine<V>, data: seq<Row<V>>, column: string)
    ensures CountOf(e, data, column) == |NumericRows(e, data, column)|
    decreases |data|
  {
    if |data| > 0 {
      var init := data[..|data| - 1];
      CountIsNumericRows(e, init, column);
      var last: nat := |data| - 1;
      var before := NumericRows(e, init, column);
      var extra := if HasNumber(e, data[last], column) then {last} else {};
      forall i: nat | i in NumericRows(e, data, column) ensures i in before + extra {
        if i < last { assert data[i] == init[i]; }
      }
      forall i: nat | i in before + extra ensures i in NumericRows(e, data, column) {
        if i < last { assert data[i] == init[i]; }
      }
      assert NumericRows(e, data, column) == before + extra;
      assert last !in before;
    }
  }

  /** Sum and count split over concatenation: each row contributes on its own. */
  lemma {:induction false} TallyAppend<V>(e: Engine<V>, a: seq<Row<V>>, b: seq<Row<V>>, column: string)
    ensures SumOf(e, a + b, column) == SumOf(e, a, column) + SumOf(e, b, column)
    ensures CountOf(e, a + b, column) == CountOf(e, a, column) + CountOf(e, b, column)
    decreases |b|
  {
    if |b| > 0 {
      assert (a + b)[..|a + b| - 1] == a + b[..|b| - 1];
      TallyAppend(e, a, b[..|b| - 1], column);
    } else {
      assert a + b == a;
    }
  }

  /** The output column name: the first placeholder in the pattern replaced by the column. */
  function OutputKey<V>(e: Engine<V>, pattern: string, column: string): string {
    ReplaceFirst(pattern, e.placeholder, column)
  }

  /** Writes `v` under `key` into every row. */
  function Broadcast<V>(data: seq<Row<V>>, key: string, v: V): (r: seq<Row<V>>)
    ensures |r| == |data|
    ensures forall i | 0 <= i < |r| :: r[i].Keys == data[i].Keys + {key} && r[i][key] == v
    ensures forall i, k | 0 <= i < |r| && k in data[i] && k != key :: r[i][k] == data[i][k]
  {
    seq(|data|, i requires 0 <= i < |data| => data[i][key := v])
  }

  /** `sum` and `count` are the two operations that write anything. */
  predicate KnownOperation(operation: string) {
    operation == "sum" || operation == "count"
  }

  /**
   * One aggregation over one column: the total is computed over the input,
   * then broadcast into every row under the derived name. An unknown
   * operation leaves the rows as they were.
   */
  function ApplySingleAggregation<V>(e: Engine<V>, data: seq<Row<V>>, operation: string, column: string, pattern: string): (r: seq<Row<V>>)
    ensures |r| == |data|
    ensures forall i | 0 <= i < |r| ::
              r[i].Keys == data[i].Keys + (if KnownOperation(operation) then {OutputKey(e, pattern, column)} else {})
    ensures forall i, k | 0 <= i < |r| && k in data[i] && k != OutputKey(e, pattern, column) :: r[i][k] == data[i][k]
    ensures operation == "sum" ==>
              forall i | 0 <= i < |r| :: OutputKey(e, pattern, column) in r[i] && r[i][OutputKey(e, pattern, column)] == e.encodeSum(SumOf(e, data, column))
    ensures operation == "count" ==>
              forall i | 0 <= i < |r| :: OutputKey(e, pattern, column) in r[i] && r[i][OutputKey(e, pattern, column)] == e.encodeCount(CountOf(e, data, column))
    ensures !KnownOperation(operation) ==> r == data
  {
    var key := OutputKey(e, pattern, column);
    if operation == "sum" then Broadcast(data, key, e.encodeSum(SumOf(e, data, column)))
    else if operation == "count" then Broadcast(data, key, e.encodeCount(CountOf(e, data, column)))
    else data
  }

  /**
   * The broadcast invariant: after a `sum` or `count`, every row holds the
   * same value under the derived name.
   */
  lemma BroadcastIsUniform<V>(e: Engine<V>, data: seq<Row<V>>, operation: string, column: string, pattern: string, i: nat, j: nat)
    requires KnownOperation(operation)
    requires i < |data| && j < |data|
    ensures var r := ApplySingleAggregation(e, data, operation, column, pattern);
            var key := OutputKey(e, pattern, column);
            key in r[i] && key in r[j] && r[i][key] == r[j][key]
  {
  }

  /** `after` holds `k` with a value `before` did not hold there. */
  ghost predicate Changed<V>(before: Row<V>, after: Row<V>, k: string) {
    k in after && (k !in before || after[k] != before[k])
  }

  /**
   * One turn of the wildcard loop: aggregate `column` if row 0 holds a
   * number there; only that column's derived name is written.
   */
  function WildcardStep<V>(e: Engine<V>, data: seq<Row<V>>, operation: string, column: string, pattern: string): (r: seq<Row<V>>)
    requires |data| > 0 && column in data[0]
    ensures |r| == |data|
    ensures forall i | 0 <= i < |r| :: data[i].Keys <= r[i].Keys
    ensures forall i, k | 0 <= i < |r| && Changed(data[i], r[i], k) ::
              e.numeric(data[0][column]).Some? && k == OutputKey(e, pattern, column)
    ensures KnownOperation(operation) && e.numeric(data[0][column]).Some? ==>
              forall i | 0 <= i < |r| :: OutputKey(e, pattern, column) in r[i]
  {
    if e.numeric(data[0][column]).Some? then ApplySingleAggregation(e, data, operation, column, pattern) else data
  }

  /**
   * The wildcard loop: for each column of row 0, in turn, aggregate it if
   * row 0 (as updated so far) holds a number there.
   */
  function AggregateEach<V>(e: Engine<V>, data: seq<Row<V>>, operation: string, columns: seq<string>, pattern: string): (r: seq<Row<V>>)
    requires |data| > 0
    requires forall c | c in columns :: c in data[0]
    ensures |r| == |data|
    ensures forall i | 0 <= i < |r| :: data[i].Keys <= r[i].Keys
    decreases |columns|
  {
    if |columns| == 0 then data
    else AggregateEach(e, WildcardStep(e, data, operation, columns[0], pattern), operation, columns[1..], pattern)
  }

  /** No derived name coincides with one of the visited columns. */
  predicate OutputsAvoid<V>(e: Engine<V>, pattern: string, columns: seq<string>) {
    forall i, j | 0 <= i < |columns| && 0 <= j < |columns| :: OutputKey(e, pattern, columns[i]) != columns[j]
  }

  /** Row 0 keeps its visited columns' cells while the loop writes derived names elsewhere. */
  lemma StepKeepsColumns<V>(e: Engine<V>, data: seq<Row<V>>, operation: string, columns: seq<string>, pattern: string)
    requires |data| > 0 && |columns| > 0
    requires forall c | c in columns :: c in data[0]
    requires OutputsAvoid(e, pattern, columns)
    ensures var next := WildcardStep(e, data, operation, columns[0], pattern);
            && (forall j | 0 <= j < |columns| :: columns[j] in next[0] && next[0][columns[j]] == data[0][columns[j]])
            && (forall c | c in columns[1..] :: c in next[0])
            && OutputsAvoid(e, pattern, columns[1..])
  {
    var next := WildcardStep(e, data, operation, columns[0], pattern);
    forall j | 0 <= j < |columns| ensures columns[j] in next[0] && next[0][columns[j]] == data[0][columns[j]] {
      assert OutputKey(e, pattern, columns[0]) != columns[j];
      assert !Changed(data[0], next[0], columns[j]);
    }
    assert forall j | 0 <= j < |columns[1..]| :: columns[1..][j] == columns[j + 1];
  }

  /** Each visited column that is numeric in row 0 gets its derived name in every row. */
  lemma {:induction false} AggregateEachCovers<V>(e: Engine<V>, data: seq<Row<V>>, operation: string, columns: seq<string>, pattern: string)
    requires |data| > 0
    requires forall c | c in columns :: c in data[0]
    requires KnownOperation(operation)
    requires OutputsAvoid(e, pattern, columns)
    ensures forall j, i | 0 <= j < |columns| && 0 <= i < |data| && e.numeric(data[0][columns[j]]).Some? ::
              OutputKey(e, pattern, columns[j]) in AggregateEach(e, data, operation, columns, pattern)[i]
    decreases |columns|
  {
    if |columns| > 0 {
      var next := WildcardStep(e, data, operation, columns[0], pattern);
      var tail := columns[1..];
      StepKeepsColumns(e, data, operation, columns, pattern);
      AggregateEachCovers(e, next, operation, tail, pattern);
      var r := AggregateEach(e, next, operation, tail, pattern);
      forall j, i | 0 <= j < |columns| && 0 <= i < |data| && e.numeric(data[0][columns[j]]).Some?
        ensures OutputKey(e, pattern, columns[j]) in r[i]
      {
        if j == 0 {
          assert OutputKey(e, pattern, columns[0]) in next[i];
        } else {
          assert tail[j - 1] == columns[j];
          assert next[0][tail[j - 1]] == data[0][columns[j]];
          assert 0 <= j - 1 < |tail| && 0 <= i < |next| && e.numeric(next[0][tail[j - 1]]).Some?;
        }
      }
    }
  }

  /** Every added or changed cell sits under the derived name of a visited numeric column. */
  lemma {:induction false} AggregateEachOnlyDerived<V>(e: Engine<V>, data: seq<Row<V>>, operation: string, columns: seq<string>, pattern: string)
    requires |data| > 0
    requires forall c | c in columns :: c in data[0]
    requires OutputsAvoid(e, pattern, columns)
    ensures forall i, k | 0 <= i < |data| && Changed(data[i], AggregateEach(e, data, operation, columns, pattern)[i], k) ::
              exists j :: 0 <= j < |columns| && e.numeric(data[0][columns[j]]).Some? && k == OutputKey(e, pattern, columns[j])
    decreases |columns|
  {
    if |columns| > 0 {
      var next := WildcardStep(e, data, operation, columns[0], pattern);
      var tail := columns[1..];
      StepKeepsColumns(e, data, operation, columns, pattern);
      AggregateEachOnlyDerived(e, next, operation, tail, pattern);
      var r := AggregateEach(e, next, operation, tail, pattern);
      assert forall i, k | 0 <= i < |next| && Changed(next[i], r[i], k) ::
              exists j :: 0 <= j < |tail| && e.numeric(next[0][tail[j]]).Some? && k == OutputKey(e, pattern, tail[j]);
      forall i, k | 0 <= i < |data| && Changed(data[i], r[i], k)
        ensures exists j :: 0 <= j < |columns| && e.numeric(data[0][columns[j]]).Some? && k == OutputKey(e, pattern, columns[j])
      {
        if Changed(next[i], r[i], k) {
          assert 0 <= i < |next|;
          assert exists j :: 0 <= j < |tail| && e.numeric(next[0][tail[j]]).Some? && k == OutputKey(e, pattern, tail[j]);
          var j :| 0 <= j < |tail| && e.numeric(next[0][tail[j]]).Some? && k == OutputKey(e, pattern, tail[j]);
          assert tail[j] == columns[j + 1];
        } else {
          assert Changed(data[i], next[i], k);
          assert e.numeric(data[0][columns[0]]).Some? && k == OutputKey(e, pattern, columns[0]);
        }
      }
    }
  }

  /** What a `sum` or `count` over `column` writes. */
  function AggregateValue<V>(e: Engine<V>, data: seq<Row<V>>, operation: string, column: string): V {
    if operation == "sum" then e.encodeSum(SumOf(e, data, column)) else e.encodeCount(CountOf(e, data, column))
  }

  /** `a` and `b` have the same rows under `column`: same presence, same cells. */
  ghost predicate SameColumn<V>(a: seq<Row<V>>, b: seq<Row<V>>, column: string) {
    |a| == |b|
    && forall i | 0 <= i < |a| :: (column in a[i] <==> column in b[i]) && (column in a[i] ==> a[i][column] == b[i][column])
  }

  /** Sum and count read only the aggregated column. */
  lemma {:induction false} TallySameColumn<V>(e: Engine<V>, a: seq<Row<V>>, b: seq<Row<V>>, column: string)
    requires SameColumn(a, b, column)
    ensures SumOf(e, a, column) == SumOf(e, b, column)
    ensures CountOf(e, a, column) == CountOf(e, b, column)
    decreases |a|
  {
    if |a| > 0 {
      var n := |a| - 1;
      assert HasNumber(e, a[n], column) == HasNumber(e, b[n], column);
      forall i | 0 <= i < n ensures (column in a[..n][i] <==> column in b[..n][i]) {
        assert a[..n][i] == a[i] && b[..n][i] == b[i];
      }
      TallySameColumn(e, a[..n], b[..n], column);
    }
  }

  /** Distinct visited columns have distinct derived names. */
  predicate OutputsDistinct<V>(e: Engine<V>, pattern: string, columns: seq<string>) {
    forall i, j | 0 <= i < |columns| && 0 <= j < |columns| && OutputKey(e, pattern, columns[i]) == OutputKey(e, pattern, columns[j]) ::
      columns[i] == columns[j]
  }

  /** One turn of the wildcard loop leaves every visited column's cells alone, in every row. */
  lemma StepKeepsCells<V>(e: Engine<V>, data: seq<Row<V>>, operation: string, columns: seq<string>, pattern: string, c: string)
    requires |data| > 0 && |columns| > 0
    requires forall c' | c' in columns :: c' in data[0]
    requires OutputsAvoid(e, pattern, columns)
    requires c in columns
    ensures SameColumn(data, WildcardStep(e, data, operation, columns[0], pattern), c)
  {
    var next := WildcardStep(e, data, operation, columns[0], pattern);
    var j :| 0 <= j < |columns| && columns[j] == c;
    assert OutputKey(e, pattern, columns[0]) != columns[j];
    forall i | 0 <= i < |data| ensures (c in data[i] <==> c in next[i]) && (c in data[i] ==> data[i][c] == next[i][c]) {
      assert !Changed(data[i], next[i], c);
    }
  }

  /**
   * When distinct columns get distinct derived names, each visited column
   * numeric in row 0 ends up holding its own sum or count, in every row.
   */
  lemma {:induction false} AggregateEachValues<V>(e: Engine<V>, data: seq<Row<V>>, operation: string, columns: seq<string>, pattern: string)
    requires |data| > 0
    requires forall c | c in columns :: c in data[0]
    requires KnownOperation(operation)
    requires OutputsAvoid(e, pattern, columns) && OutputsDistinct(e, pattern, columns)
    ensures forall j, i | 0 <= j < |columns| && 0 <= i < |data| && e.numeric(data[0][columns[j]]).Some? ::
              var r := AggregateEach(e, data, operation, columns, pattern);
              OutputKey(e, pattern, columns[j]) in r[i]
              && r[i][OutputKey(e, pattern, columns[j])] == AggregateValue(e, data, operation, columns[j])
    decreases |columns|
  {
    if |columns| > 0 {
      var next := WildcardStep(e, data, operation, columns[0], pattern);
      var tail := columns[1..];
      StepKeepsColumns(e, data, operation, columns, pattern);
      assert forall x | 0 <= x < |tail| :: tail[x] == columns[x + 1];
      assert OutputsDistinct(e, pattern, tail);
      AggregateEachValues(e, next, operation, tail, pattern);
      AggregateEachCovers(e, data, operation, columns, pattern);
      AggregateEachOnlyDerived(e, next, operation, tail, pattern);
      var r := AggregateEach(e, next, operation, tail, pattern);
      assert r == AggregateEach(e, data, operation, columns, pattern);
      forall j, i | 0 <= j < |columns| && 0 <= i < |data| && e.numeric(data[0][columns[j]]).Some?
        ensures r[i][OutputKey(e, pattern, columns[j])] == AggregateValue(e, data, operation, columns[j])
      {
        var c := columns[j];
        var key := OutputKey(e, pattern, c);
        StepKeepsCells(e, data, operation, columns, pattern, c);
        TallySameColumn(e, data, next, c);
        if j > 0 {
          assert tail[j - 1] == c && next[0][c] == data[0][c];
        } else {
          assert next[i][key] == AggregateValue(e, data, operation, c);
          assert !Changed(next[i], r[i], key);
        }
      }
    }
  }

  /** One aggregation rule; `*` visits the keys of row 0 in the fixed key order. */
  function ApplyAggregationRule<V>(e: Engine<V>, data: seq<Row<V>>, rule: AggregationRule): (r: seq<Row<V>>)
    requires |data| > 0
    ensures |r| == |data|
    ensures forall i | 0 <= i < |r| :: data[i].Keys <= r[i].Keys
  {
    if rule.column == "*" then AggregateEach(e, data, rule.operation, SortedKeys(data[0].Keys), rule.pattern)
    else ApplySingleAggregation(e, data, rule.operation, rule.column, rule.pattern)
  }

  /** An enumeration of row 0's keys meets the premises of the wildcard loop lemmas. */
  lemma RowZeroColumnsAvoidOutputs<V>(e: Engine<V>, data: seq<Row<V>>, columns: seq<string>, pattern: string)
    requires |data| > 0
    requires forall c :: c in columns <==> c in data[0]
    requires forall c | c in data[0] :: OutputKey(e, pattern, c) !in data[0]
    ensures OutputsAvoid(e, pattern, columns)
  {
    forall i, j | 0 <= i < |columns| && 0 <= j < |columns|
      ensures OutputKey(e, pattern, columns[i]) != columns[j]
    {
      assert columns[i] in data[0] && columns[j] in data[0];
    }
  }

  /** Each numeric column of row 0 gets its derived field in every row. */
  lemma AggregateRowZeroCovers<V>(e: Engine<V>, data: seq<Row<V>>, operation: string, columns: seq<string>, pattern: string)
    requires |data| > 0 && KnownOperation(operation)
    requires forall c :: c in columns <==> c in data[0]
    requires forall c | c in data[0] :: OutputKey(e, pattern, c) !in data[0]
    ensures forall c, i | c in data[0] && e.numeric(data[0][c]).Some? && 0 <= i < |data| ::
              OutputKey(e, pattern, c) in AggregateEach(e, data, operation, columns, pattern)[i]
  {
    RowZeroColumnsAvoidOutputs(e, data, columns, pattern);
    AggregateEachCovers(e, data, operation, columns, pattern);
    var r := AggregateEach(e, data, operation, columns, pattern);
    forall c, i | c in data[0] && e.numeric(data[0][c]).Some? && 0 <= i < |data|
      ensures OutputKey(e, pattern, c) in r[i]
    {
      assert c in columns;
      var j :| 0 <= j < |columns| && columns[j] == c;
    }
  }

  /** Every added or changed cell sits under the derived name of a numeric column of row 0. */
  lemma AggregateRowZeroOnlyDerived<V>(e: Engine<V>, data: seq<Row<V>>, operation: string, columns: seq<string>, pattern: string)
    requires |data| > 0
    requires forall c :: c in columns <==> c in data[0]
    requires forall c | c in data[0] :: OutputKey(e, pattern, c) !in data[0]
    ensures forall i, k | 0 <= i < |data| && Changed(data[i], AggregateEach(e, data, operation, columns, pattern)[i], k) ::
              exists c :: c in data[0] && e.numeric(data[0][c]).Some? && k == OutputKey(e, pattern, c)
  {
    RowZeroColumnsAvoidOutputs(e, data, columns, pattern);
    AggregateEachOnlyDerived(e, data, operation, columns, pattern);
    var r := AggregateEach(e, data, operation, columns, pattern);
    forall i, k | 0 <= i < |data| && Changed(data[i], r[i], k)
      ensures exists c :: c in data[0] && e.numeric(data[0][c]).Some? && k == OutputKey(e, pattern, c)
    {
      var j :| 0 <= j < |columns| && e.numeric(data[0][columns[j]]).Some? && k == OutputKey(e, pattern, columns[j]);
      assert columns[j] in columns;
    }
  }

  /** Distinct columns of row 0 have distinct derived names. */
  predicate DerivedNamesDistinct<V>(e: Engine<V>, row: Row<V>, pattern: string) {
    forall c1, c2 | c1 in row && c2 in row && OutputKey(e, pattern, c1) == OutputKey(e, pattern, c2) :: c1 == c2
  }

  /** Each numeric column of row 0 ends up holding its own sum or count. */
  lemma AggregateRowZeroValues<V>(e: Engine<V>, data: seq<Row<V>>, operation: string, columns: seq<string>, pattern: string)
    requires |data| > 0 && KnownOperation(operation)
    requires forall c :: c in columns <==> c in data[0]
    requires forall c | c in data[0] :: OutputKey(e, pattern, c) !in data[0]
    requires DerivedNamesDistinct(e, data[0], pattern)
    ensures forall c, i | c in data[0] && e.numeric(data[0][c]).Some? && 0 <= i < |data| ::
              var r := AggregateEach(e, data, operation, columns, pattern);
              OutputKey(e, pattern, c) in r[i] && r[i][OutputKey(e, pattern, c)] == AggregateValue(e, data, operation, c)
  {
    RowZeroColumnsAvoidOutputs(e, data, columns, pattern);
    assert OutputsDistinct(e, pattern, columns) by {
      forall a, b | 0 <= a < |columns| && 0 <= b < |columns| && OutputKey(e, pattern, columns[a]) == OutputKey(e, pattern, columns[b])
        ensures columns[a] == columns[b]
      {
        assert columns[a] in data[0] && columns[b] in data[0];
      }
    }
    AggregateEachValues(e, data, operation, columns, pattern);
    var r := AggregateEach(e, data, operation, columns, pattern);
    forall c, i | c in data[0] && e.numeric(data[0][c]).Some? && 0 <= i < |data|
      ensures OutputKey(e, pattern, c) in r[i] && r[i][OutputKey(e, pattern, c)] == AggregateValue(e, data, operation, c)
    {
      assert c in columns;
      var j :| 0 <= j < |columns| && columns[j] == c;
    }
  }

  /**
   * A `*` rule aggregates exactly the columns that are numeric in row 0,
   * provided no derived name is itself a column of row 0: each such column
   * gets its own broadcast field, and nothing else is added or changed.
   * Columns that appear only in later rows are never aggregated. When
   * distinct columns get distinct derived names, each derived field holds
   * the sum or count of its own column.
   */
  lemma WildcardAggregation<V>(e: Engine<V>, data: seq<Row<V>>, operation: string, pattern: string)
    requires |data| > 0 && KnownOperation(operation)
    requires forall c | c in data[0] :: OutputKey(e, pattern, c) !in data[0]
    ensures forall c, i | c in data[0] && e.numeric(data[0][c]).Some? && 0 <= i < |data| ::
              OutputKey(e, pattern, c) in ApplyAggregationRule(e, data, AggregationRule(operation, "*", pattern))[i]
    ensures forall i, k | 0 <= i < |data| && Changed(data[i], ApplyAggregationRule(e, data, AggregationRule(operation, "*", pattern))[i], k) ::
              exists c :: c in data[0] && e.numeric(data[0][c]).Some? && k == OutputKey(e, pattern, c)
    ensures DerivedNamesDistinct(e, data[0], pattern) ==>
              forall c, i | c in data[0] && e.numeric(data[0][c]).Some? && 0 <= i < |data| ::
                var r := ApplyAggregationRule(e, data, AggregationRule(operation, "*", pattern));
                OutputKey(e, pattern, c) in r[i] && r[i][OutputKey(e, pattern, c)] == AggregateValue(e, data, operation, c)
  {
    var columns := SortedKeys(data[0].Keys);
    AggregateRowZeroCovers(e, data, operation, columns, pattern);
    AggregateRowZeroOnlyDerived(e, data, operation, columns, pattern);
    if DerivedNamesDistinct(e, data[0], pattern) {
      AggregateRowZeroValues(e, data, operation, columns, pattern);
    }
    assert ApplyAggregationRule(e, data, AggregationRule(operation, "*", pattern))
        == AggregateEach(e, data, operation, columns, pattern);
  }

  /** The rules applied left to right, each seeing the columns earlier ones wrote. */
  function ApplyAggregationRules<V>(e: Engine<V>, data: seq<Row<V>>, rules: seq<AggregationRule>): (r: seq<Row<V>>)
    requires |data| > 0
    ensures |r| == |data|
    ensures forall i | 0 <= i < |r| :: data[i].Keys <= r[i].Keys
    decreases |rules|
  {
    if |rules| == 0 then data
    else ApplyAggregationRules(e, ApplyAggregationRule(e, data, rules[0]), rules[1..])
  }

  /** The aggregation stage; an empty input is returned as it is. */
  function ApplyAggregations<V>(e: Engine<V>, data: seq<Row<V>>, rules: seq<AggregationRule>): (r: seq<Row<V>>)
    ensures |r| == |data|
    ensures |data| == 0 ==> r == data
    ensures forall i | 0 <= i < |r| :: data[i].Keys <= r[i].Keys
  {
    if |data| == 0 then data else ApplyAggregationRules(e, data, rules)
  }

  /** Running `r1 + r2` is running `r1`, then `r2` on what `r1` produced. */
  lemma {:induction false} AggregationRulesCompose<V>(e: Engine<V>, data: seq<Row<V>>, r1: seq<AggregationRule>, r2: seq<AggregationRule>)
    requires |data| > 0
    ensures ApplyAggregationRules(e, data, r1 + r2) == ApplyAggregationRules(e, ApplyAggregationRules(e, data, r1), r2)
    decreases |r1|
  {
    if |r1| == 0 {
      assert r1 + r2 == r2;
    } else {
      assert (r1 + r2)[0] == r1[0];
      assert (r1 + r2)[1..] == r1[1..] + r2;
      AggregationRulesCompose(e, ApplyAggregationRule(e, data, r1[0]), r1[1..], r2);
    }
  }

  /**
   * The aggregation rules run left to right: each later rule sees the
   * fields the earlier ones wrote.
   */
  lemma AggregationsCompose<V>(e: Engine<V>, data: seq<Row<V>>, r1: seq<AggregationRule>, r2: seq<AggregationRule>)
    ensures ApplyAggregations(e, data, r1 + r2) == ApplyAggregations(e, ApplyAggregations(e, data, r1), r2)
  {
    if |data| > 0 {
      AggregationRulesCompose(e, data, r1, r2);
    }
  }

  /** Two rules: the second one runs on what the first one produced. */
  lemma TwoRules<V>(e: Engine<V>, data: seq<Row<V>>, first: AggregationRule, second: AggregationRule)
    requires |data| > 0
    ensures ApplyAggregations(e, data, [first, second])
            == ApplyAggregationRule(e, ApplyAggregationRule(e, data, first), second)
  {
    var mid := ApplyAggregationRule(e, data, first);
    var r := ApplyAggregationRule(e, mid, second);
    assert [first] + [second] == [first, second];
    AggregationsCompose(e, data, [first], [second]);
    assert [first][1..] == [] && [second][1..] == [];
    assert ApplyAggregationRules(e, mid, []) == mid;
    assert ApplyAggregations(e, data, [first]) == mid;
    assert ApplyAggregationRules(e, r, []) == r;
    assert ApplyAggregations(e, mid, [second]) == r;
  }

  /**
   * A `*` rule after a named rule sees the field the named rule wrote: it
   * aggregates exactly the columns numeric in the updated record 0.
   */
  lemma SecondRuleSeesFirst<V>(e: Engine<V>, data: seq<Row<V>>, first: AggregationRule, operation: string, pattern: string)
    requires |data| > 0 && first.column != "*"
    requires var mid := ApplySingleAggregation(e, data, first.operation, first.column, first.pattern);
             forall c | c in mid[0] :: OutputKey(e, pattern, c) !in mid[0]
    ensures var mid := ApplySingleAggregation(e, data, first.operation, first.column, first.pattern);
            var r := ApplyAggregations(e, data, [first, AggregationRule(operation, "*", pattern)]);
            KnownOperation(operation) ==>
              forall c, i | c in mid[0] && e.numeric(mid[0][c]).Some? && 0 <= i < |data| :: OutputKey(e, pattern, c) in r[i]
    ensures var mid := ApplySingleAggregation(e, data, first.operation, first.column, first.pattern);
            var r := ApplyAggregations(e, data, [first, AggregationRule(operation, "*", pattern)]);
            forall i, k | 0 <= i < |data| && Changed(mid[i], r[i], k) ::
              exists c :: c in mid[0] && e.numeric(mid[0][c]).Some? && k == OutputKey(e, pattern, c)
  {
    var star := AggregationRule(operation, "*", pattern);
    TwoRules(e, data, first, star);
    var mid := ApplySingleAggregation(e, data, first.operation, first.column, first.pattern);
    var columns := SortedKeys(mid[0].Keys);
    assert ApplyAggregationRule(e, mid, star) == AggregateEach(e, mid, operation, columns, pattern);
    AggregateRowZeroOnlyDerived(e, mid, operation, columns, pattern);
    if KnownOperation(operation) {
      AggregateRowZeroCovers(e, mid, operation, columns, pattern);
    }
  }

  // ---------------------------------------------------------------- pipeline

  /** Filter, then (when enabled) lower-case the keys, then aggregate. */
  function ApplyTransformations<V>(e: Engine<V>, data: seq<Row<V>>, rules: Rules): (r: seq<Row<V>>)
    ensures |r| == |ApplyFilters(e, data, rules.filters)|
  {
    var filtered := ApplyFilters(e, data, rules.filters);
    var mapped := if rules.mapping.dynamicMapping then ApplyDynamicMapping(filtered) else filtered;
    ApplyAggregations(e, mapped, rules.aggregations)
  }

  /** With no filters, no lower-casing and no aggregations the rows come back unchanged. */
  lemma IdentityLaw<V>(e: Engine<V>, data: seq<Row<V>>, mapping: MappingRules)
    requires !mapping.dynamicMapping
    ensures ApplyTransformations(e, data, Rules([], mapping, [])) == data
  {
    FilterWithoutRules(e, data);
  }

  /** A lone count rule on a named column writes the count into every row. */
  lemma CountRuleBroadcasts<V>(e: Engine<V>, data: seq<Row<V>>, column: string, pattern: string)
    requires column != "*"
    ensures var r := ApplyAggregations(e, data, [AggregationRule("count", column, pattern)]);
            forall i | 0 <= i < |r| ::
              OutputKey(e, pattern, column) in r[i] && r[i][OutputKey(e, pattern, column)] == e.encodeCount(CountOf(e, data, column))
  {
    if |data| > 0 {
      var rule := AggregationRule("count", column, pattern);
      assert [rule][0] == rule && [rule][1..] == [];
      assert ApplyAggregations(e, data, [rule]) == ApplyAggregationRules(e, ApplyAggregationRule(e, data, rule), []);
    }
  }

  /**
   * The stages run in the fixed order filter, mapping, aggregation: a count
   * rule counts the rows the filter kept, after their keys were lower-cased
   * when mapping is on.
   */
  lemma CountSeesFilteredRows<V>(e: Engine<V>, data: seq<Row<V>>, rules: Rules, column: string, pattern: string)
    requires rules.aggregations == [AggregationRule("count", column, pattern)] && column != "*"
    ensures var filtered := ApplyFilters(e, data, rules.filters);
            var mapped := if rules.mapping.dynamicMapping then ApplyDynamicMapping(filtered) else filtered;
            var r := ApplyTransformations(e, data, rules);
            forall i | 0 <= i < |r| ::
              OutputKey(e, pattern, column) in r[i] && r[i][OutputKey(e, pattern, column)] == e.encodeCount(CountOf(e, mapped, column))
  {
    var filtered := ApplyFilters(e, data, rules.filters);
    var mapped := if rules.mapping.dynamicMapping then ApplyDynamicMapping(filtered) else filtered;
    CountRuleBroadcasts(e, mapped, column, pattern);
  }

  /**
   * Without mapping and aggregation the pipeline is the filter: a row comes
   * out exactly when it went in and every rule let it through.
   */
  lemma PipelineWithoutAggregationFilters<V>(e: Engine<V>, data: seq<Row<V>>, rules: Rules, row: Row<V>)
    requires !rules.mapping.dynamicMapping && rules.aggregations == []
    ensures row in ApplyTransformations(e, data, rules) <==>
            row in data && forall i | 0 <= i < |rules.filters| :: RulePasses(e, row, rules.filters[i])
  {
    FilterMembership(e, data, rules.filters, row);
    KeepRowIsConjunction(e, row, rules.filters);
  }
}

=== FILE: values.dfy ===
/**
 * The dynamically typed cell value of the `map[string]interface{}` records:
 * what a JSON decoder, a CSV reader, a document store, or an earlier
 * aggregation can put there.
 */
module Values {

  datatype Value =
    | Str(s: string)          // Go `string`
    | Float(f: real)          // Go `float64`; IEEE rounding is not modelled
    | Int(i: int)             // Go `int` or `int64`
    | Bool(b: bool)           // Go `bool`
    | Null                    // Go `nil`, also the result of reading a missing key
    | Composite(kind: string) // any other Go type, named by `kind`: a nested map or slice,
                              // `time.Time`, `[]byte`, `int32`, `float32`, ...; no scalar rendering
}

=== FILE: variants.dfy ===
/**
 * The three hand-copied engines of the transformation package as instances
 * of the one generic engine, and the places where they disagree.
 *
 *  - StringEngine: `ApplyTransformations` over `map[string]string` records.
 *    A cell is numeric when ParseFloat accepts it; sums are formatted with two
 *    decimals, counts in decimal.
 *  - CsvEngine: `ApplyCSVTransformations` over `map[string]interface{}`
 *    records read from CSV. Every string cell is numeric; one ParseFloat
 *    rejects reads as 0. Sums are stored as floats, counts as ints.
 *  - JsonEngine: `ApplyJSONTransformations` over decoded JSON documents.
 *    Only float cells are numeric, and the output-name placeholder is `<key>`.
 *
 * ParseFloat and FormatFloat are parameters: the model does not fix their
 * grammar or rounding, only what the engines do with their answers.
 */
module Variants {
  import opened Wrappers
  import opened Text
  import opened Values
  import opened Conditions
  import opened Transform

  /** The placeholder the CSV-oriented engines substitute. */
  const ColumnPlaceholder := "<column>"

  /** The placeholder the JSON engine substitutes. */
  const KeyPlaceholder := "<key>"

  /** The engine of csv.go: string cells, ParseFloat decides what is numeric. */
  function StringEngine(parse: string -> Option<real>, formatFixed2: real -> string): Engine<string> {
    Engine(parse, "", (v, c) => CheckCondition(parse, v, c), ColumnPlaceholder, formatFixed2, IntToDecimal)
  }

  /** `isCSVNumeric` plus the ParseFloat that follows it: any string, read as 0 when it does not parse. */
  function CsvNumber(parse: string -> Option<real>, v: Value): Option<real> {
    if v.Str? then Some(parse(v.s).GetOr(0.0)) else None
  }

  /** The engine of csv_to_json.go. */
  function CsvEngine(parse: string -> Option<real>): Engine<Value> {
    Engine(v => CsvNumber(parse, v), Null, (v, c) => CheckCondition(parse, v, c), ColumnPlaceholder,
           x => Float(x), n => Int(n))
  }

  /** `isJSONNumeric`: only a float64 cell is a number. */
  function JsonNumber(v: Value): Option<real> {
    if v.Float? then Some(v.f) else None
  }

  /** The engine of trans_json.go. */
  function JsonEngine(parse: string -> Option<real>): Engine<Value> {
    Engine(JsonNumber, Null, (v, c) => CheckCondition(parse, v, c), KeyPlaceholder,
           x => Float(x), n => Int(n))
  }

  /** `>18` as the rule file writes it. */
  const Over18 := ">18"

  /** The threshold `>18` compares with 18 whenever "18" parses as 18. */
  lemma Over18Compares(parse: string -> Option<real>, v: real)
    requires parse("18") == Some(18.0)
    ensures CheckCondition(parse, v, Over18) == (v > 18.0)
  {
    assert Over18 == "" + [Symbol(Greater)] + "" + "18" + "";
    CheckConditionRendered(parse, v, Greater, "", "", "18", "");
  }

  /** One rule over three rows keeps each row exactly when the rule lets it through. */
  lemma FilterThreeRows<V>(e: Engine<V>, a: Row<V>, b: Row<V>, c: Row<V>, rule: FilterRule)
    ensures ApplyFilters(e, [a, b, c], [rule])
            == (if RulePasses(e, a, rule) then [a] else [])
             + (if RulePasses(e, b, rule) then [b] else [])
             + (if RulePasses(e, c, rule) then [c] else [])
  {
    assert [rule][..0] == [];
    assert KeepRow(e, a, [rule]) == RulePasses(e, a, rule);
    assert KeepRow(e, b, [rule]) == RulePasses(e, b, rule);
    assert KeepRow(e, c, [rule]) == RulePasses(e, c, rule);
    var rows := [a, b, c];
    assert rows[1..] == [b, c] && [b, c][1..] == [c] && [c][1..] == [];
    assert ApplyFilters(e, [], [rule]) == [];
    assert ApplyFilters(e, [c], [rule]) == (if RulePasses(e, c, rule) then [c] else []);
    assert ApplyFilters(e, [b, c], [rule])
        == (if RulePasses(e, b, rule) then [b] else []) + ApplyFilters(e, [c], [rule]);
  }

  /** csv.go compares a cell only when ParseFloat accepts it. */
  lemma StringRulePasses(parse: string -> Option<real>, fmt: real -> string, row: Row<string>, column: string, condition: string)
    requires column in row
    ensures RulePasses(StringEngine(parse, fmt), row, FilterRule(column, condition))
            == (parse(row[column]).None? || CheckCondition(parse, parse(row[column]).value, condition))
  {
  }

  /** The three verdicts of `age >18` in csv.go. */
  lemma StringAgeVerdicts(parse: string -> Option<real>, fmt: real -> string)
    requires parse("17") == Some(17.0) && parse("19") == Some(19.0) && parse("18") == Some(18.0)
    requires parse("abc") == None
    ensures var e, rule := StringEngine(parse, fmt), FilterRule("age", Over18);
            !RulePasses(e, map["age" := "17"], rule) && RulePasses(e, map["age" := "19"], rule)
            && RulePasses(e, map["age" := "abc"], rule)
  {
    StringRulePasses(parse, fmt, map["age" := "17"], "age", Over18);
    StringRulePasses(parse, fmt, map["age" := "19"], "age", Over18);
    StringRulePasses(parse, fmt, map["age" := "abc"], "age", Over18);
    Over18Compares(parse, 17.0);
    Over18Compares(parse, 19.0);
  }

  /**
   * csv.go: with rule `age >18`, 17 is dropped, 19 is kept, and "abc", which
   * ParseFloat rejects, passes through untouched.
   */
  lemma StringFilterKeepsNonNumeric(parse: string -> Option<real>, fmt: real -> string)
    requires parse("17") == Some(17.0) && parse("19") == Some(19.0) && parse("18") == Some(18.0)
    requires parse("abc") == None
    ensures var rows := [map["age" := "17"], map["age" := "19"], map["age" := "abc"]];
            ApplyFilters(StringEngine(parse, fmt), rows, [FilterRule("age", Over18)]) == [rows[1], rows[2]]
  {
    StringAgeVerdicts(parse, fmt);
    FilterThreeRows(StringEngine(parse, fmt), map["age" := "17"], map["age" := "19"], map["age" := "abc"], FilterRule("age", Over18));
  }

  /** csv_to_json.go compares a string cell as the number ParseFloat gives, or 0. */
  lemma CsvRulePasses(parse: string -> Option<real>, row: Row<Value>, column: string, condition: string)
    requires column in row && row[column].Str?
    ensures RulePasses(CsvEngine(parse), row, FilterRule(column, condition))
            == CheckCondition(parse, parse(row[column].s).GetOr(0.0), condition)
  {
  }

  /** The three verdicts of `age >18` in csv_to_json.go. */
  lemma CsvAgeVerdicts(parse: string -> Option<real>)
    requires parse("17") == Some(17.0) && parse("19") == Some(19.0) && parse("18") == Some(18.0)
    requires parse("abc") == None
    ensures var e, rule := CsvEngine(parse), FilterRule("age", Over18);
            !RulePasses(e, map["age" := Str("17")], rule) && RulePasses(e, map["age" := Str("19")], rule)
            && !RulePasses(e, map["age" := Str("abc")], rule)
  {
    CsvRulePasses(parse, map["age" := Str("17")], "age", Over18);
    CsvRulePasses(parse, map["age" := Str("19")], "age", Over18);
    CsvRulePasses(parse, map["age" := Str("abc")], "age", Over18);
    Over18Compares(parse, 17.0);
    Over18Compares(parse, 19.0);
    Over18Compares(parse, 0.0);
  }

  /**
   * csv_to_json.go: the same rows and rule, but "abc" is a string, so it is
   * numeric there and reads as 0, which fails `>18`: only 19 survives.
   */
  lemma CsvFilterDropsUnparseable(parse: string -> Option<real>)
    requires parse("17") == Some(17.0) && parse("19") == Some(19.0) && parse("18") == Some(18.0)
    requires parse("abc") == None
    ensures var rows := [map["age" := Str("17")], map["age" := Str("19")], map["age" := Str("abc")]];
            ApplyFilters(CsvEngine(parse), rows, [FilterRule("age", Over18)]) == [rows[1]]
  {
    CsvAgeVerdicts(parse);
    FilterThreeRows(CsvEngine(parse), map["age" := Str("17")], map["age" := Str("19")], map["age" := Str("abc")], FilterRule("age", Over18));
  }

  /**
   * trans_json.go: a cell holding the string "25" is not a number there, so
   * not even `<18` removes its row.
   */
  lemma JsonStringCellsNeverConstrain(parse: string -> Option<real>, data: seq<Row<Value>>, filters: seq<FilterRule>)
    requires forall i, j | 0 <= i < |data| && 0 <= j < |filters| ::
               filters[j].column in data[i] ==> !data[i][filters[j].column].Float?
    ensures ApplyFilters(JsonEngine(parse), data, filters) == data
  {
    var e := JsonEngine(parse);
    forall i | 0 <= i < |data| ensures KeepRow(e, data[i], filters) {
      forall j | 0 <= j < |filters| ensures RulePasses(e, data[i], filters[j]) {
      }
      KeepRowIsConjunction(e, data[i], filters);
    }
    FilterKeepsAllKept(e, data, filters);
  }

  /** When every row is kept, the filter is the identity. */
  lemma {:induction false} FilterKeepsAllKept<V>(e: Engine<V>, data: seq<Row<V>>, filters: seq<FilterRule>)
    requires forall i | 0 <= i < |data| :: KeepRow(e, data[i], filters)
    ensures ApplyFilters(e, data, filters) == data
    decreases |data|
  {
    if |data| > 0 {
      FilterKeepsAllKept(e, data[1..], filters);
      assert data == [data[0]] + data[1..];
    }
  }

  /**
   * A `*` filter rule never constrains in any variant: ParseFloat rejects the
   * empty string csv.go reads for the missing key, and the other two read nil.
   */
  lemma StarFilterInert(parse: string -> Option<real>, fmt: real -> string,
                        strings: seq<Row<string>>, values: seq<Row<Value>>, filters: seq<FilterRule>, condition: string)
    requires parse("") == None
    requires forall i | 0 <= i < |strings| :: "*" !in strings[i]
    requires forall i | 0 <= i < |values| :: "*" !in values[i]
    ensures ApplyFilters(StringEngine(parse, fmt), strings, filters + [FilterRule("*", condition)])
            == ApplyFilters(StringEngine(parse, fmt), strings, filters)
    ensures ApplyFilters(CsvEngine(parse), values, filters + [FilterRule("*", condition)])
            == ApplyFilters(CsvEngine(parse), values, filters)
    ensures ApplyFilters(JsonEngine(parse), values, filters + [FilterRule("*", condition)])
            == ApplyFilters(JsonEngine(parse), values, filters)
  {
    StarRuleNeverConstrains(StringEngine(parse, fmt), strings, filters, condition);
    StarRuleNeverConstrains(CsvEngine(parse), values, filters, condition);
    StarRuleNeverConstrains(JsonEngine(parse), values, filters, condition);
  }

  /** `n_<column>` with `amount` substituted. */
  lemma CountNameForAmount()
    ensures ReplaceFirst("n_<column>", ColumnPlaceholder, "amount") == "n_amount"
  {
    assert "n_<column>" == "n_" + ColumnPlaceholder + "";
    NoOccurrenceBefore("n_", ColumnPlaceholder, "");
    ReplaceFirstAt("n_", ColumnPlaceholder, "", "amount");
    assert "n_" + "amount" + "" == "n_amount";
  }

  /**
   * csv.go: counting `amount` over 10, "x", 5 writes "2" into every row,
   * under `n_amount`: the unparseable cell is not counted.
   */
  lemma StringCountSkipsNonNumeric(parse: string -> Option<real>, fmt: real -> string)
    requires parse("10") == Some(10.0) && parse("x") == None && parse("5") == Some(5.0)
    ensures var rows := [map["amount" := "10"], map["amount" := "x"], map["amount" := "5"]];
            var r := ApplyAggregations(StringEngine(parse, fmt), rows, [AggregationRule("count", "amount", "n_<column>")]);
            |r| == 3 && forall i | 0 <= i < 3 :: "n_amount" in r[i] && r[i]["n_amount"] == "2"
  {
    var e := StringEngine(parse, fmt);
    var rows := [map["amount" := "10"], map["amount" := "x"], map["amount" := "5"]];
    CountNameForAmount();
    assert OutputKey(e, "n_<column>", "amount") == "n_amount";
    CountIsNumericRows(e, rows, "amount");
    assert NumericRows(e, rows, "amount") == {0, 2};
    assert CountOf(e, rows, "amount") == 2;
    CountRuleBroadcasts(e, rows, "amount", "n_<column>");
  }

  /**
   * csv.go: summing `amount` over 10, "x", 5 formats 15 into every row: the
   * unparseable cell adds nothing.
   */
  lemma StringSumSkipsNonNumeric(parse: string -> Option<real>, fmt: real -> string, pattern: string)
    requires parse("10") == Some(10.0) && parse("x") == None && parse("5") == Some(5.0)
    ensures var rows := [map["amount" := "10"], map["amount" := "x"], map["amount" := "5"]];
            var e := StringEngine(parse, fmt);
            var r := ApplySingleAggregation(e, rows, "sum", "amount", pattern);
            forall i | 0 <= i < 3 :: r[i][OutputKey(e, pattern, "amount")] == fmt(15.0)
  {
    var e := StringEngine(parse, fmt);
    var rows := [map["amount" := "10"], map["amount" := "x"], map["amount" := "5"]];
    assert rows[..2] == [rows[0], rows[1]] && [rows[0], rows[1]][..1] == [rows[0]] && [rows[0]][..0] == [];
    assert HasNumber(e, rows[0], "amount") && e.numeric(rows[0]["amount"]) == Some(10.0);
    assert !HasNumber(e, rows[1], "amount");
    assert HasNumber(e, rows[2], "amount") && e.numeric(rows[2]["amount"]) == Some(5.0);
    assert SumOf(e, [rows[0]], "amount") == 10.0;
    assert SumOf(e, [rows[0], rows[1]], "amount") == 10.0;
    assert SumOf(e, rows, "amount") == 15.0;
  }

  /** csv_to_json.go: the count is the number of rows whose cell is any string at all. */
  lemma CsvCountCountsStrings(parse: string -> Option<real>, data: seq<Row<Value>>, column: string)
    ensures CountOf(CsvEngine(parse), data, column) == |set i: nat | i < |data| && column in data[i] && data[i][column].Str?|
  {
    CountIsNumericRows(CsvEngine(parse), data, column);
    assert NumericRows(CsvEngine(parse), data, column) == set i: nat | i < |data| && column in data[i] && data[i][column].Str?;
  }

  /** trans_json.go: the count is the number of rows whose cell is a float. */
  lemma JsonCountCountsFloats(parse: string -> Option<real>, data: seq<Row<Value>>, column: string)
    ensures CountOf(JsonEngine(parse), data, column) == |set i: nat | i < |data| && column in data[i] && data[i][column].Float?|
  {
    CountIsNumericRows(JsonEngine(parse), data, column);
    assert NumericRows(JsonEngine(parse), data, column) == set i: nat | i < |data| && column in data[i] && data[i][column].Float?;
  }

  /**
   * csv_to_json.go: what `sum` and `count` write is a float or an int, never a
   * string, so it is not numeric for this engine and a later `*` rule will
   * not aggregate it again.
   */
  lemma CsvResultsNotReaggregated(parse: string -> Option<real>, data: seq<Row<Value>>, operation: string, column: string, pattern: string)
    requires KnownOperation(operation)
    ensures var e := CsvEngine(parse);
            var r := ApplySingleAggregation(e, data, operation, column, pattern);
            forall i | 0 <= i < |r| :: e.numeric(r[i][OutputKey(e, pattern, column)]).None?
  {
  }

  /**
   * csv_to_json.go: after a named `sum` or `count`, a `*` rule skips the field
   * it wrote; whatever the second rule adds or changes sits under the derived
   * name of some other column that is numeric in record 0.
   */
  lemma CsvWildcardSkipsEarlierResult(parse: string -> Option<real>, data: seq<Row<Value>>, first: AggregationRule, operation: string, pattern: string)
    requires |data| > 0 && KnownOperation(first.operation) && first.column != "*"
    requires var mid := ApplySingleAggregation(CsvEngine(parse), data, first.operation, first.column, first.pattern);
             forall c | c in mid[0] :: OutputKey(CsvEngine(parse), pattern, c) !in mid[0]
    ensures var e := CsvEngine(parse);
            var mid := ApplySingleAggregation(e, data, first.operation, first.column, first.pattern);
            var derived := OutputKey(e, first.pattern, first.column);
            var r := ApplyAggregations(e, data, [first, AggregationRule(operation, "*", pattern)]);
            && derived in mid[0] && e.numeric(mid[0][derived]).None?
            && forall i, k | 0 <= i < |data| && Changed(mid[i], r[i], k) ::
                 exists c :: c in mid[0] && c != derived && e.numeric(mid[0][c]).Some? && k == OutputKey(e, pattern, c)
  {
    var e := CsvEngine(parse);
    SecondRuleSeesFirst(e, data, first, operation, pattern);
    CsvResultsNotReaggregated(parse, data, first.operation, first.column, first.pattern);
  }

  /**
   * trans_json.go substitutes `<key>`: a pattern written with `<key>` gets
   * the column name.
   */
  lemma JsonKeyPlaceholder(parse: string -> Option<real>)
    ensures OutputKey(JsonEngine(parse), "total_<key>", "amount") == "total_amount"
  {
    assert "total_<key>" == "total_" + KeyPlaceholder + "";
    NoOccurrenceBefore("total_", KeyPlaceholder, "");
    ReplaceFirstAt("total_", KeyPlaceholder, "", "amount");
    assert "total_" + "amount" + "" == "total_amount";
  }

  /**
   * A pattern written with `<column>`, as the CSV engines expect, is used
   * verbatim by trans_json.go, so every column would share one output name.
   */
  lemma JsonIgnoresColumnPlaceholder(parse: string -> Option<real>)
    ensures OutputKey(JsonEngine(parse), "total_<column>", "amount") == "total_<column>"
  {
    var s := "total_<column>";
    assert 'k' !in s by {
      forall i | 0 <= i < |s| ensures s[i] != 'k' {
        assert s[i] in {'t', 'o', 'a', 'l', '_', '<', 'c', 'u', 'm', 'n', '>'};
      }
    }
    NoOccurrenceWithout(s, KeyPlaceholder, 1);
    ReplaceFirstAbsent(s, KeyPlaceholder, "amount");
  }

  /** The CSV engines substitute `<column>` in the same pattern. */
  lemma CsvColumnPlaceholder(parse: string -> Option<real>, fmt: real -> string)
    ensures OutputKey(StringEngine(parse, fmt), "total_<column>", "amount") == "total_amount"
    ensures OutputKey(CsvEngine(parse), "total_<column>", "amount") == "total_amount"
  {
    assert "total_<column>" == "total_" + ColumnPlaceholder + "";
    NoOccurrenceBefore("total_", ColumnPlaceholder, "");
    ReplaceFirstAt("total_", ColumnPlaceholder, "", "amount");
    assert "total_" + "amount" + "" == "total_amount";
  }

  /**
   * trans_json.go: a `*` rule aggregates exactly the keys whose row-0 value is
   * a float, when no derived name is already a key of row 0; with distinct
   * derived names, each holds the sum or count of its own key.
   */
  lemma JsonWildcardAggregatesFloatKeys(parse: string -> Option<real>, data: seq<Row<Value>>, operation: string, pattern: string)
    requires |data| > 0 && KnownOperation(operation)
    requires forall c | c in data[0] :: OutputKey(JsonEngine(parse), pattern, c) !in data[0]
    ensures var e := JsonEngine(parse);
            var r := ApplyAggregationRule(e, data, AggregationRule(operation, "*", pattern));
            forall c, i | c in data[0] && data[0][c].Float? && 0 <= i < |data| :: OutputKey(e, pattern, c) in r[i]
    ensures var e := JsonEngine(parse);
            var r := ApplyAggregationRule(e, data, AggregationRule(operation, "*", pattern));
            forall i, k | 0 <= i < |data| && Changed(data[i], r[i], k) ::
              exists c :: c in data[0] && data[0][c].Float? && k == OutputKey(e, pattern, c)
    ensures var e := JsonEngine(parse);
            var r := ApplyAggregationRule(e, data, AggregationRule(operation, "*", pattern));
            DerivedNamesDistinct(e, data[0], pattern) ==>
              forall c, i | c in data[0] && data[0][c].Float? && 0 <= i < |data| ::
                OutputKey(e, pattern, c) in r[i] && r[i][OutputKey(e, pattern, c)] == AggregateValue(e, data, operation, c)
  {
    WildcardAggregation(JsonEngine(parse), data, operation, pattern);
  }
}

=== FILE: wrappers.dfy ===
/** Option and Result, the two failure-carrying shapes the model needs. */
module Wrappers {

  /** A value that may be missing: Go's `(v, ok)` and `(v, err)` pairs when only `ok` matters. */
  datatype Option<+T> = None | Some(value: T) {

    /** The wrapped value, or `default` when there is none. */
    function GetOr(default: T): (r: T)
      ensures Some? ==> r == value
      ensures None? ==> r == default
    {
      match this
      case Some(v) => v
      case None => default
    }
  }

  /** Either a value or an error: Go's `(T, error)` return. */
  datatype Result<+R, +E> = Success(value: R) | Failure(error: E)

  /**
   * Go's "loop, and return at the first error" over a list of results: the
   * error of the first failure, or every value in order.
   */
  function Collect<R, E>(results: seq<Result<R, E>>): (r: Result<seq<R>, E>)
    ensures r.Success? ==> |r.value| == |results|
    decreases |results|
  {
    if |results| == 0 then Success([])
    else if results[0].Failure? then Failure(results[0].error)
    else
      match Collect(results[1..])
      case Failure(e) => Failure(e)
      case Success(rest) => Success([results[0].value] + rest)
  }

  /** Collecting succeeds exactly when every result does. */
  lemma {:induction false} CollectSucceedsIff<R, E>(results: seq<Result<R, E>>)
    ensures Collect(results).Success? <==> forall i | 0 <= i < |results| :: results[i].Success?
    decreases |results|
  {
    if |results| > 0 {
      var tail := results[1..];
      CollectSucceedsIff(tail);
      assert forall i | 0 <= i < |tail| :: tail[i] == results[i + 1];
      if forall i | 0 <= i < |results| :: results[i].Success? {
        assert forall i | 0 <= i < |tail| :: tail[i].Success?;
      }
      if forall i | 0 <= i < |tail| :: tail[i].Success? {
        assert forall i | 1 <= i < |results| :: results[i] == tail[i - 1];
      }
    }
  }

  /** On success, value `i` is the value of result `i`. */
  lemma {:induction false} CollectAt<R, E>(results: seq<Result<R, E>>, i: nat)
    requires Collect(results).Success? && i < |results|
    ensures results[i] == Success(Collect(results).value[i])
    decreases i
  {
    if i > 0 {
      var tail := results[1..];
      CollectAt(tail, i - 1);
      assert tail[i - 1] == results[i];
    }
  }

  /** Result `i` is the first failure among `results`, and it carries `error`. */
  ghost predicate FirstFailureAt<R, E>(results: seq<Result<R, E>>, i: int, error: E) {
    0 <= i < |results|
    && (forall j | 0 <= j < i :: results[j].Success?)
    && results[i] == Failure(error)
  }

  /** On failure, the error is the one carried by the first failing result. */
  lemma {:induction false} CollectFirstFailure<R, E>(results: seq<Result<R, E>>)
    requires Collect(results).Failure?
    ensures exists i :: FirstFailureAt(results, i, Collect(results).error)
    decreases |results|
  {
    if results[0].Failure? {
      assert FirstFailureAt(results, 0, Collect(results).error);
    } else {
      var tail := results[1..];
      CollectFirstFailure(tail);
      var i :| FirstFailureAt(tail, i, Collect(tail).error);
      forall j | 0 <= j < i + 1 ensures results[j].Success? {
        if j > 0 { assert results[j] == tail[j - 1]; }
      }
      assert results[i + 1] == tail[i];
      assert FirstFailureAt(results, i + 1, Collect(results).error);
    }
  }

  /** Collecting works element by element: after successes, it distributes over concatenation. */
  lemma {:induction false} CollectConcat<R, E>(xs: seq<Result<R, E>>, ys: seq<Result<R, E>>)
    requires Collect(xs).Success?
    ensures Collect(xs + ys).Success? <==> Collect(ys).Success?
    ensures Collect(xs + ys).Success? ==> Collect(xs + ys).value == Collect(xs).value + Collect(ys).value
    decreases |xs|
  {
    if |xs| == 0 {
      assert xs + ys == ys;
    } else {
      assert (xs + ys)[0] == xs[0];
      assert (xs + ys)[1..] == xs[1..] + ys;
      CollectConcat(xs[1..], ys);
    }
  }
}
